=== FILE: README.md ===
# VC1 encoder output sinks, modelled in Dafny

The two libav adapters around the Main Concept VC1 encoder receive the encoder's
compressed output through the SDK's `bufstream_tt` callback interface
(`request`, `confirm`, `copybytes`, `auxinfo`, `done`, ...). This project
models both sinks as immutable states with one pure transition per callback.

- **Reorder ring** (`libavcodec/libmcvc1.c`). Ten fixed 1 MB slots with a
  read cursor and a write cursor that advance modulo 10. The encoder's
  `request` takes the next slot, `confirm` records its byte count, and
  `auxinfo` first stores the sample time the encoder echoes back,
  rescaled from 100 ns ticks (`TIME_STAMP_INFO`). It then sets the unit's pts, and its dts from a clock offset `pts_diff`
  that freezes on first use (`VIDEO_AU_CODE`). The host's `VC1_frame` turns the
  frame's pts into that sample time and packs the strided Y/U/V planes of
  the frame (upward or downward strides) into one I420 buffer. It polls
  `read_frame` and turns the slot it gets into a packet, flagged key for
  intra pictures.
- **Staging buffer** (`libavcodec/main_concept_vc1.c`). An internal chunk
  buffer (`bfr`, `idx`, `bfr_size`) spills into a bounded user buffer
  (`user_bfr`, `user_idx`, `user_bfr_size`). The spill happens when a request
  no longer fits, when the byte count is queried, and on `done`.
- **`get_video_type`**, the width/height preset classifier both files carry.

Files:
- `bufstream.dfy`: module `BufStream`. The shared types: `uint32` wrap-around,
  the `auxinfo` record kinds, rational time bases, and `memcpy` as `CopyInto`.
- `ring.dfy`: module `ReorderRing`. The callbacks of `libmcvc1.c`.
- `ring_props.dfy`: module `RingProperties`. The window of unread units,
  draining order, event traces, the frozen clock offset and pts fidelity.
- `frame.dfy`: module `FrameAdapter`. The packet, end-of-stream signalling and
  I420 packing of `VC1_frame`.
- `video_type.dfy`: module `VideoType`.
- `staging.dfy`: module `StagingBuffer`. The callbacks of `main_concept_vc1.c`.
- `staging_props.dfy`: module `StagingProperties`. Room, spill monotonicity,
  and whole-session delivery.

Modelling choices:
- `av_rescale_q` is a function-valued parameter (`Rescaler`), so every
  statement holds for any rescaler.
- `malloc`ed contents are parameters of `Init`: the slot payloads in the ring,
  and the chunk buffer in the staging sink.
- `uint32_t` arithmetic is written out. `write_idx` starts at -1, stored as
  `0xFFFFFFFF`. The first `(write_idx + 1) % 10` wraps to slot 0.
- The staging fit test `idx + numbytes <= bfr_size` is evaluated modulo 2^32.
- Calls whose C behaviour is undefined are excluded by preconditions. Two
  examples are indexing `frames[write_idx]` before the first `request`, and a
  `memcpy` larger than its destination. In `RingProperties.Run` such an event
  yields `None`.

## Model

| member | source | states |
|---|---|---|
| BufStream.U32Add | libavcodec/main_concept_vc1.c:74 | `uint32_t` addition equals the true sum below 2^32 and the sum minus 2^32 above it |
| BufStream.CopyInto | libavcodec/main_concept_vc1.c:82 | `memcpy` puts the source bytes at the offset and leaves every byte before and after them as it was |
| ReorderRing.NextWrite | libavcodec/libmcvc1.c:112 | the advanced write cursor is always a slot index; from a slot it is the next slot mod 10, and from the initial -1 it is slot 0 |
| ReorderRing.Init | libavcodec/libmcvc1.c:281-289 | the fresh ring is well formed, with read cursor 0, write cursor -1, offset -1 and half-buffer chunk size; every slot keeps its uninitialised payload but is unpopulated |
| ReorderRing.ReadFrame | libavcodec/libmcvc1.c:83-97 | an unpopulated read slot yields nothing and leaves the ring unchanged; a populated one is returned, cleared, and the cursor moves on mod 10, with every other slot and field unchanged |
| ReorderRing.Request | libavcodec/libmcvc1.c:108-116 | the write cursor moves to the next slot, which becomes populated; no other slot and neither the read cursor nor the offset change |
| ReorderRing.Confirm | libavcodec/libmcvc1.c:120-127 | returns its argument and records it as the write slot's byte count; no cursor, other slot or field changes |
| ReorderRing.Fill | libavcodec/libmcvc1.c:139 | the encoder's bytes occupy the start of the write slot's buffer; the rest of that buffer and every other slot are untouched |
| ReorderRing.CopyBytes | libavcodec/libmcvc1.c:131-141 | always returns the full length; the next slot becomes populated and holds exactly the bytes and their count, with its timestamps, flags, picture type and the rest of its buffer as before; no other slot, cursor, offset, time base or chunk size changes |
| ReorderRing.AuxInfo | libavcodec/libmcvc1.c:152-243 | always `BS_OK`. The byte-count query reports the read slot's size. The timestamp record stores the rescaled original pts. The access-unit record sets pts to that original, freezes the offset while it is -1, and sets dts to the rescaled encoder dts plus the offset. Every other record leaves the ring as it was, and no record flips a populated flag |
| RingProperties.InitIsEmpty | libavcodec/libmcvc1.c:281-289 | a fresh ring holds no unread units and its first request lands on slot 0 |
| RingProperties.RequestExtendsWindow | libavcodec/libmcvc1.c:108-116 | with fewer than ten unread units, a request lands just past the newest and the window grows by one |
| RingProperties.RequestOverrunsOldest | libavcodec/libmcvc1.c:112-113 | with ten unread units, a request hands out the oldest unread slot, because the read cursor is never consulted |
| RingProperties.CallbacksKeepWindow | libavcodec/libmcvc1.c:120-243 | confirm, the encoder's writes and every auxinfo record keep the set of unread units |
| RingProperties.RequestIgnoresReader | libavcodec/libmcvc1.c:108-116 | the request's result does not depend on the read cursor |
| RingProperties.ReadShrinksWindow | libavcodec/libmcvc1.c:88-92 | with unread units, a poll returns the oldest and the window shrinks by one from the front |
| RingProperties.RequestedSlotReadableAtOnce | libavcodec/libmcvc1.c:83-116 | on an empty ring, a poll straight after a request returns the requested slot as it was, before any confirm, write or record has filled it |
| RingProperties.EmptyPollIsIdempotent | libavcodec/libmcvc1.c:94-96 | polling an empty ring returns nothing and changes nothing, so repeated empty polls are idempotent |
| RingProperties.DrainReturnsWindowInOrder | libavcodec/libmcvc1.c:83-97 | polling n times a ring with n unread units returns exactly those units in request order and leaves it empty |
| RingProperties.OffsetAssignedOnlyWhileUnset | libavcodec/libmcvc1.c:226-229 | only an access-unit record changes the clock offset, and only while it holds -1 |
| RingProperties.FrozenOffsetPersists | libavcodec/libmcvc1.c:226-229 | once the offset is not -1, no sequence of callbacks and polls changes it or the time base |
| RingProperties.LaterUnitsUseFrozenOffset | libavcodec/libmcvc1.c:222-234 | after the offset froze, every access unit's dts is its rescaled encoder dts plus that frozen offset |
| RingProperties.OffsetOfMinusOneIsRecomputed | libavcodec/libmcvc1.c:224-234 | a genuine offset of -1 is indistinguishable from the sentinel, so the next unit recomputes it |
| RingProperties.OriginalPtsSurvives | libavcodec/libmcvc1.c:186-224 | confirms, writes, polls and non-timestamp records leave the write slot's stored original pts intact |
| RingProperties.PresentationTimestampFidelity | libavcodec/libmcvc1.c:186-233 | a unit's pts is exactly the sample time of the preceding timestamp record, rescaled once from 100 ns ticks, whatever confirms, writes, polls and non-timestamp records come in between (no request or copybytes) |
| RingProperties.RequestBetweenRecordsStampsStalePts | libavcodec/libmcvc1.c:186-233 | a request between a timestamp record and the access-unit record moves the write cursor, so the unit gets the next slot's leftover original pts instead of the recorded sample time |
| FrameAdapter.TakePacket | libavcodec/libmcvc1.c:500-521 | a packet exists iff the read slot is populated; it carries exactly the slot's committed bytes, pts, dts and duration 1, and is key iff the picture type is `I_TYPE` |
| FrameAdapter.CopyFillsReadSlot | libavcodec/libmcvc1.c:131-141 | on an empty ring, copybytes fills exactly the slot the next poll reads, with the bytes and their count, and leaves one unread unit |
| FrameAdapter.RecordsStampReadSlot | libavcodec/libmcvc1.c:186-233 | a timestamp record then an access-unit record give that slot its original pts, pts, offset-derived dts, flags and picture type, and change nothing else in it |
| FrameAdapter.EncodedUnitReachesHost | libavcodec/libmcvc1.c:448-521 | on an empty ring, one unit delivered by copybytes, the echoed timestamp record of a frame and an access-unit record reaches the host as a packet with exactly its bytes, the frame's pts taken to 100 ns ticks and back, the offset-derived dts and the key flag of its type; the ring is empty again |
| FrameAdapter.FramePtsReachesUnit | libavcodec/libmcvc1.c:448 | when the timestamp record echoes the sample time of a frame, the unit's pts is that frame's pts taken to 100 ns ticks and back, whatever confirms, writes, polls and non-timestamp records come in between (no request or copybytes) |
| FrameAdapter.FlushCall | libavcodec/libmcvc1.c:424-431 | a NULL frame signals the encoder to drain iff it was not signalled before, and afterwards it is marked done |
| FrameAdapter.EndOfStreamSignalledOnce | libavcodec/libmcvc1.c:424-431 | however many NULL frames arrive, the encoder is told to drain at most once, and exactly once if it was not told before |
| FrameAdapter.PlaneLayoutDisjoint | libavcodec/libmcvc1.c:437-441 | Y, U and V rows stay inside their own regions, the regions follow one another up to the packed size, and no two rows of a plane overlap |
| FrameAdapter.SourceRow | libavcodec/libmcvc1.c:453 | row i of a plane is the row length of bytes starting at the plane origin plus i times the signed stride |
| FrameAdapter.BottomUpPlaneRows | libavcodec/libmcvc1.c:451-454 | a plane whose origin is its allocation's last row and whose stride is negative is readable, row i coming from allocation row rows-1-i |
| FrameAdapter.CopyRows | libavcodec/libmcvc1.c:452-454 | appending the rows keeps the buffer's prefix and adds exactly rows × row length bytes, each row equal to the source row read at its signed stride from the plane origin |
| FrameAdapter.PackI420 | libavcodec/libmcvc1.c:437-464 | the packed buffer has size w·h + 2·(w/2)·(h/2) and holds every Y, U and V row at its I420 offset, for positive or negative source strides |
| VideoType.Classify | libavcodec/libmcvc1.c:392-416 | each preset is returned iff its size condition holds: CIF, SVCD and D1 for their named sizes, then BASELINE below width 288, BD from 1280 and MAIN otherwise |
| VideoType.CopiesAgree | libavcodec/main_concept_vc1.c:321-345 | the second copy classifies every size as the first does, whatever the frame rate |
| VideoType.HeightMattersOnlyForNamedWidths | libavcodec/libmcvc1.c:392-416 | outside widths 352, 480 and 720 the preset does not depend on the height |
| StagingBuffer.Init | libavcodec/main_concept_vc1.c:197-203 | both cursors are 0, all three sizes equal `bufsize`, the user buffer is the caller's, and nothing is staged |
| StagingBuffer.UsableBytes | libavcodec/main_concept_vc1.c:62-66 | the room after `idx`, and the wrapped `uint32_t` difference if `idx` has passed `bfr_size` |
| StagingBuffer.Spill | libavcodec/main_concept_vc1.c:82-83 | moving the chunk behind the spilled bytes empties the chunk and keeps the committed byte sequence; the user buffer after the moved bytes, the chunk buffer and every size are untouched |
| StagingBuffer.Request | libavcodec/main_concept_vc1.c:70-88 | never alters the committed byte sequence. If the request fits, it grants `idx` and changes nothing. It returns NULL, changing nothing, iff it does not fit, bytes are staged and the spill is blocked. Otherwise it grants offset 0, after exactly that spill when bytes were staged and with nothing changed when none were |
| StagingBuffer.Confirm | libavcodec/main_concept_vc1.c:92-96 | returns its argument and advances `idx` by it modulo 2^32; nothing else changes |
| StagingBuffer.Fill | libavcodec/main_concept_vc1.c:110 | the data lands at the offset of the chunk buffer, whose bytes before and after it are kept, and nothing else changes |
| StagingBuffer.Put | libavcodec/main_concept_vc1.c:110-111 | writing at `idx` and confirming appends exactly the data to the committed bytes and advances `idx` by its length |
| StagingBuffer.CopyBytes | libavcodec/main_concept_vc1.c:100-112 | when the request is refused, it returns 0 and discards the staged chunk, keeping only the spilled bytes; otherwise it returns the length and the data is appended to the committed bytes. If the chunk fits, the data lands at `idx`, which grows by its length, and the user buffer is untouched; if not, the staged chunk is spilled first and the data lands at offset 0. The chunk size never changes |
| StagingBuffer.AuxInfo | libavcodec/main_concept_vc1.c:122-148 | only a valid byte-count query acts. It returns 0, changing nothing, iff bytes are staged and the spill is blocked. Otherwise all committed bytes are in the user buffer and their count is reported, the state being exactly that of the spill (unchanged when nothing was staged); the chunk size never changes |
| StagingBuffer.Done | libavcodec/main_concept_vc1.c:157-165 | copies the staged chunk behind the spilled bytes only if it fits a non-null user buffer, leaving the user buffer after the copy untouched; it never moves `user_idx` and changes no other field |
| StagingProperties.ConfirmCommits | libavcodec/main_concept_vc1.c:62-96 | confirming no more than the usable bytes keeps the sink valid and commits exactly the bytes written after `idx` |
| StagingProperties.GrantHasRoom | libavcodec/main_concept_vc1.c:70-88 | a grant for at most the chunk buffer's size has room for all requested bytes |
| StagingProperties.FitTestWraps | libavcodec/main_concept_vc1.c:74-75 | with bytes staged, a request for 2^32-1 bytes passes the wrapped fit test and is granted the room after `idx`, fewer than half the bytes asked |
| StagingProperties.OversizeRequestGranted | libavcodec/main_concept_vc1.c:74-87 | with nothing staged, a request larger than the chunk buffer is still granted the whole, smaller buffer, changing nothing |
| StagingProperties.SplitDecidesRefusal | libavcodec/main_concept_vc1.c:74-80 | two sinks with the same committed bytes, split differently between user buffer and chunk, differ on the next copy: one stages it, the other refuses it and drops its chunk |
| StagingProperties.CopyLandsWhileRoom | libavcodec/main_concept_vc1.c:77-112 | while the committed bytes fit the user buffer, copybytes is never refused |
| StagingProperties.SpilledOnlyGrows | libavcodec/main_concept_vc1.c:70-148 | request, copybytes and auxinfo only ever extend the bytes already in the user buffer, never rewrite them |
| StagingProperties.NoCopyRefused | libavcodec/main_concept_vc1.c:100-112 | in a run of copybytes whose total fits the user buffer, every call returns its chunk's length |
| StagingProperties.AllCopiesLand | libavcodec/main_concept_vc1.c:70-112 | such a run leaves the committed bytes equal to the earlier bytes followed by every chunk, in order |
| StagingProperties.SessionDeliversAllBytes | libavcodec/main_concept_vc1.c:122-143 | for chunks that each fit the chunk buffer and together fit the user buffer: after init, copybytes of every chunk and a byte-count query, the query succeeds and reports the total, and the user buffer begins with exactly the concatenated chunks |
| StagingProperties.DoneLeavesCountBehind | libavcodec/main_concept_vc1.c:161-165 | whenever a chunk is staged, after `done` the byte count covers less than everything committed |

## Left out

- Encoder SDK calls (`vc1OutVideoNew`, `Init`, `PutFrame`, `Done`, `GetParSets`, `Defaults`): a foreign library. The encoder appears only as the caller of the callbacks, and the end-of-stream call only as the `signalled` flag.
- `av_rescale_q`: its rounding is not in these files, so it is a parameter. The constants `ONE_HUNDRED_NANOS` and `TWENTY_SEVEN_MHZ` are kept.
- `int64_t` timestamps: modelled as unbounded integers. Overflow of `original_pts - encoder_pts` or `encoder_dts + pts_diff` is not modelled.
- `VC1_init` parameter translation is not modelled. It covers the floating-point frame rate, `bit_rate * 1.1`, the profile and format string matching that ends in `exit`, and the extradata copy. It is configuration of the foreign encoder.
- The `rtStop` computation in `VC1_frame`: a `double` division whose result no modelled state reads.
- The encoder's echo of the sample time: `VC1_frame` attaches `rtStart` (libavcodec/libmcvc1.c:448, `FrameAdapter.SampleTime`) to the frame, and the SDK later reports a `TIME_STAMP_INFO` record. That the record carries the same `rtStart` is an assumption about the SDK, which is not part of this model; the frame-level pts statements take it as a hypothesis. A second assumption about the SDK: it requests a unit's buffer (by `request` or `copybytes`) before sending that unit's timestamp and access-unit records, and requests nothing between the two. Otherwise the access-unit record stamps the next slot with its leftover original pts (`RingProperties.RequestBetweenRecordsStampsStalePts`).
- Logging helpers, `get_rc` and `yield`: I/O only.
- `malloc`/`free` lifecycle: `open_mem_buf_write`, `fw_free`, the freeing part of `fw_done`, the `BS_ERROR` return on allocation failure, and the `exit(1)` paths. Allocation is assumed to succeed.
- AVOption, AVClass and AVCodec tables: declarations, with no behaviour.
- `VC1_frame` of `main_concept_vc1.c`: it hands planes to the SDK and sets `got_packet` from an uninitialised variable, so it has no stateable behaviour.
- `fw_usable_bytes`, `fw_chunksize` and `fw_split` of `libmcvc1.c`, and `fw_chunksize` and `fw_split` of `main_concept_vc1.c`: each returns a constant or a stored field.
- FrameAdapter.PackI420: the `int` products `width * height` are taken as exact. C `int` overflow for frames over 2^31 pixels is not modelled.
- StagingBuffer.Valid: buffer sizes are kept below 2^31. For larger sizes `user_idx + idx` can wrap and the guarded `memcpy` overruns the user buffer, which is undefined behaviour.
- ReorderRing.CopyBytes and ReorderRing.Fill: require the data to fit the slot buffer. A larger `memcpy` is undefined behaviour in the source.
- StagingBuffer.CopyBytes: requires the data to fit the chunk buffer unless the request is refused (a refused chunk of any `uint32_t` length is modelled). A granted chunk larger than the chunk buffer makes the `memcpy` overrun it, which is undefined behaviour.
- ReorderRing.Confirm, ReorderRing.Fill and ReorderRing.AuxInfo: require a `request` first when they touch `frames[write_idx]`. Before it, `write_idx` is `0xFFFFFFFF` and the access is out of bounds.
- `I_TYPE` (taken as 1, the MPEG intra picture code) and `BS_OK` come from SDK headers that are not part of this model. The status is kept abstract (`BsOk` or `ReturnedZero`). If `BS_OK` is 0 in that header, the failed byte-count query in `main_concept_vc1.c` cannot be told apart from success.
- Behaviours of the code that a reader might not expect, modelled as written: `request` in `libmcvc1.c` has no capacity check and silently overruns the oldest unread slot (`RingProperties.RequestOverrunsOldest`). The clock offset is frozen once, not recomputed per unit, except for the -1 case (`RingProperties.OffsetOfMinusOneIsRecomputed`). A slot becomes readable as soon as `request` marks it populated (libavcodec/libmcvc1.c:113), before its `confirm` or access-unit record arrives, so a poll in between returns a packet built from whatever size and timestamps the slot held before (`RingProperties.RequestedSlotReadableAtOnce`).
- `ClassifyAtRate` carries no contract of its own: it is the second copy of the classifier, related to the first by `VideoType.CopiesAgree`.

=== FILE: bufstream.dfy ===
/**
 The part of the encoder SDK's `bufstream_tt` callback interface that both
 sinks share: C's fixed-width unsigned integers, the auxiliary-information
 records the encoder pushes through `auxinfo`, rational time bases, and the
 `memcpy` both sinks use to move bytes between buffers.
 */
module BufStream {

  const UINT32_LIMIT: int := 0x1_0000_0000
  const UINT32_MAX: int := 0xFFFF_FFFF

  type byte = x: int | 0 <= x < 0x100
  type uint16 = x: int | 0 <= x < 0x1_0000
  type uint32 = x: int | 0 <= x < 0x1_0000_0000

  /** `a + b` on `uint32_t`: wraps modulo 2^32. */
  function U32Add(a: uint32, b: uint32): (r: uint32)
    ensures a + b < UINT32_LIMIT ==> r == a + b
    ensures a + b >= UINT32_LIMIT ==> r == a + b - UINT32_LIMIT
  {
    (a + b) % UINT32_LIMIT
  }

  /** `a - b` on `uint32_t`: wraps modulo 2^32. */
  function U32Sub(a: uint32, b: uint32): (r: uint32)
    ensures b <= a ==> r == a - b
    ensures a < b ==> r == a - b + UINT32_LIMIT
  {
    (a - b) % UINT32_LIMIT
  }

  datatype Option<T> = None | Some(value: T)

  /** `AVRational`: a time base of num/den seconds per tick. */
  datatype Rational = Rational(num: int, den: int)

  /** The encoder's sample-time clock (100 ns ticks). */
  const HUNDRED_NANOS: Rational := Rational(1, 10000000)
  /** The encoder's access-unit clock (27 MHz ticks). */
  const TWENTY_SEVEN_MHZ: Rational := Rational(1, 27000000)

  /** `av_rescale_q(a, from, to)`. Its rounding is not part of this model, so
      every operation that rescales takes the rescaler as a parameter. */
  type Rescaler = (int, Rational, Rational) -> int

  /** The fields of the SDK's `v_au_struct` the sinks read. */
  datatype AccessUnit = AccessUnit(pts: int, dts: int, flags: uint16, picType: uint16)

  /** The auxiliary-information kinds the encoder reports through `auxinfo`,
      one variant per `info_ID` the sinks name, with the payload they read.
      `ByteCountInfo` carries whether the out-pointer is non-null and the
      declared `info_size`; `OtherInfo` stands for every other identifier. */
  datatype AuxRecord =
    | ByteCountInfo(hasTarget: bool, infoSize: uint32)
    | PictureStartCode
    | StatisticInfo
    | CpbFullness
    | TimeStampInfo(rtStart: int)
    | WmvStreamInfo
    | StreamFormatInfo
    | SeqStartCode
    | GopStartCode
    | VideoAuCode(au: AccessUnit)
    | OtherInfo(id: uint32)

  /** The byte-count query is answered only for a non-null pointer to a
      4-byte (`sizeof(uint32_t)`) target. */
  predicate WantsByteCount(info: AuxRecord)
  {
    info.ByteCountInfo? && info.hasTarget && info.infoSize == 4
  }

  /** What `auxinfo` returns: `BS_OK`, or the literal 0 one sink returns when
      a flush does not fit. */
  datatype AuxStatus = BsOk | ReturnedZero

  /** `memcpy(&dst[at], src, |src|)`: `src` lands at `at`, everything else in
      `dst` is kept. */
  function CopyInto(dst: seq<byte>, at: nat, src: seq<byte>): (r: seq<byte>)
    requires at + |src| <= |dst|
    ensures |r| == |dst|
    ensures r[at..at + |src|] == src
    ensures r[..at] == dst[..at]
    ensures r[at + |src|..] == dst[at + |src|..]
  {
    dst[..at] + src + dst[at + |src|..]
  }
}

=== FILE: frame.dfy ===
/**
 The host-facing half of libavcodec/libmcvc1.c's `VC1_frame`: packing a
 frame's strided Y/U/V planes into the contiguous I420 buffer the encoder
 takes, signalling end of stream once, and turning the slot `read_frame`
 hands back into an output packet.
 */
module FrameAdapter {
  import opened BufStream
  import opened ReorderRing
  import opened RingProperties

  /** The encoder's intra picture type code (`I_TYPE`, the MPEG picture
      coding type 1). */
  const I_TYPE: uint16 := 1

  /** The packet the host receives. */
  datatype Packet = Packet(data: seq<byte>, pts: int, dts: int, duration: int, key: bool)

  /** What one `VC1_frame` call produces: `got_packet` is `packet.Some?`. */
  datatype Output = Output(packet: Option<Packet>, ring: Ring)

  /** The packet-building tail of `VC1_frame`: poll the ring once; if a unit
      is ready, copy its committed bytes and timestamps into the packet and
      flag it key exactly when it is an intra picture. */
  function TakePacket(r: Ring): (o: Output)
    requires Valid(r)
    requires r.slots[r.readIdx].populated ==> r.slots[r.readIdx].dataSize <= BUFFER_SIZE
    ensures o.ring == ReadFrame(r).ring
    ensures o.packet.Some? <==> r.slots[r.readIdx].populated
    ensures o.packet.Some? ==>
      var sl := r.slots[r.readIdx];
      && o.packet.value.data == sl.bytes[..sl.dataSize]
      && |o.packet.value.data| == sl.dataSize
      && o.packet.value.pts == sl.pts
      && o.packet.value.dts == sl.dts
      && o.packet.value.duration == 1
      && (o.packet.value.key <==> sl.picType == I_TYPE)
  {
    var p := ReadFrame(r);
    match p.frame
    case None => Output(None, p.ring)
    case Some(sl) =>
      Output(Some(Packet(sl.bytes[..sl.dataSize], sl.pts, sl.dts, 1, sl.picType == I_TYPE)), p.ring)
  }

  /** The sample time `VC1_frame` attaches to each frame it hands the
      encoder: the frame's pts rescaled from the codec time base into 100 ns
      ticks. The encoder echoes it back in the unit's timestamp record. */
  function SampleTime(framePts: int, timeBase: Rational, rescale: Rescaler): int
  {
    rescale(framePts, timeBase, HUNDRED_NANOS)
  }

  /** `copybytes` on an empty ring puts the unit in the read slot and makes it
      the only unread unit. */
  lemma CopyFillsReadSlot(r: Ring, data: seq<byte>)
    requires Window(r, 0) && |data| <= BUFFER_SIZE
    ensures var r1 := CopyBytes(r, data).ring;
      && Window(r1, 1) && r1.writeIdx == r.readIdx && r1.readIdx == r.readIdx
      && r1.slots[r.readIdx].dataSize == |data|
      && r1.slots[r.readIdx].bytes[..|data|] == data
  {
    var g := Request(r);
    RequestExtendsWindow(r, 0);
    var filled := Fill(g.ring, data);
    SameFlagsKeepWindow(g.ring, filled, 1);
    SameFlagsKeepWindow(filled, Confirm(filled, |data|).ring, 1);
    assert CopyBytes(r, data).ring == Confirm(filled, |data|).ring;
  }

  /** The timestamp record and then the access-unit record on the unit in
      the read slot give it its pts and dts and keep it the only unread
      unit. */
  lemma RecordsStampReadSlot(r1: Ring, rtStart: int, au: AccessUnit, rescale: Rescaler)
    requires Window(r1, 1) && r1.writeIdx == r1.readIdx
    ensures
      var r2 := AuxInfo(r1, TimeStampInfo(rtStart), rescale).ring;
      var r3 := AuxInfo(r2, VideoAuCode(au), rescale).ring;
      var pts := rescale(rtStart, HUNDRED_NANOS, r1.timeBase);
      var encPts := rescale(au.pts, TWENTY_SEVEN_MHZ, r1.timeBase);
      var encDts := rescale(au.dts, TWENTY_SEVEN_MHZ, r1.timeBase);
      var offset := if r1.ptsDiff == PTS_DIFF_UNSET then pts - encPts else r1.ptsDiff;
      && Window(r3, 1) && r3.readIdx == r1.readIdx
      && r3.slots[r3.readIdx] == r1.slots[r1.readIdx].(originalPts := pts, pts := pts,
           dts := encDts + offset, flags := au.flags, picType := au.picType)
  {
    CallbacksKeepWindow(r1, 1, 0, [], TimeStampInfo(rtStart), rescale);
    var r2 := AuxInfo(r1, TimeStampInfo(rtStart), rescale).ring;
    CallbacksKeepWindow(r2, 1, 0, [], VideoAuCode(au), rescale);
  }

  /** One frame's compressed unit, delivered by `copybytes` and described by
      the timestamp record echoing the frame's sample time and by an
      access-unit record, reaches the host as one packet. The packet holds
      exactly the unit's bytes, the frame's pts taken to 100 ns ticks and
      back, the offset-derived dts and the key flag of its picture type, and
      the ring is empty again. */
  lemma EncodedUnitReachesHost(r: Ring, data: seq<byte>, framePts: int, au: AccessUnit, rescale: Rescaler)
    requires Window(r, 0) && |data| <= BUFFER_SIZE
    ensures
      var r1 := CopyBytes(r, data).ring;
      var r2 := AuxInfo(r1, TimeStampInfo(SampleTime(framePts, r.timeBase, rescale)), rescale).ring;
      var r3 := AuxInfo(r2, VideoAuCode(au), rescale).ring;
      var pts := rescale(rescale(framePts, r.timeBase, HUNDRED_NANOS), HUNDRED_NANOS, r.timeBase);
      var encPts := rescale(au.pts, TWENTY_SEVEN_MHZ, r.timeBase);
      var encDts := rescale(au.dts, TWENTY_SEVEN_MHZ, r.timeBase);
      var offset := if r.ptsDiff == PTS_DIFF_UNSET then pts - encPts else r.ptsDiff;
      && r3.slots[r3.readIdx].populated
      && r3.slots[r3.readIdx].dataSize <= BUFFER_SIZE
      && TakePacket(r3).packet == Some(Packet(data, pts, encDts + offset, 1, au.picType == I_TYPE))
      && Window(TakePacket(r3).ring, 0)
  {
    CopyFillsReadSlot(r, data);
    var r1 := CopyBytes(r, data).ring;
    var rtStart := SampleTime(framePts, r.timeBase, rescale);
    RecordsStampReadSlot(r1, rtStart, au, rescale);
    var r3 := AuxInfo(AuxInfo(r1, TimeStampInfo(rtStart), rescale).ring, VideoAuCode(au), rescale).ring;
    assert Ahead(r3.readIdx, r3.readIdx) == 0;
    ReadShrinksWindow(r3, 1);
  }

  /** Followed from the frame: when the encoder's timestamp record echoes
      the sample time `VC1_frame` attached to a frame, the unit's pts is that
      frame's pts taken to 100 ns ticks and back into the codec time base,
      whatever confirms, writes, polls or other records come in between. */
  lemma FramePtsReachesUnit(r: Ring, framePts: int, es: seq<Event>, au: AccessUnit, rescale: Rescaler)
    requires HasWriteSlot(r)
    requires forall i :: 0 <= i < |es| ==> KeepsTimestamp(es[i])
    requires Run(AuxInfo(r, TimeStampInfo(SampleTime(framePts, r.timeBase, rescale)), rescale).ring, es, rescale).Some?
    ensures var t := Run(AuxInfo(r, TimeStampInfo(SampleTime(framePts, r.timeBase, rescale)), rescale).ring, es, rescale).value;
      && t.writeIdx == r.writeIdx
      && AuxInfo(t, VideoAuCode(au), rescale).ring.slots[r.writeIdx].pts
        == rescale(rescale(framePts, r.timeBase, HUNDRED_NANOS), HUNDRED_NANOS, r.timeBase)
  {
    PresentationTimestampFidelity(r, SampleTime(framePts, r.timeBase, rescale), es, au, rescale);
  }

  /** `VC1_frame` with a NULL frame: tell the encoder to drain
      (`vc1OutVideoDone`) unless that has already happened. */
  datatype EndOfStream = EndOfStream(signalled: bool, done: bool)

  function FlushCall(done: bool): (e: EndOfStream)
    ensures e.done
    ensures e.signalled <==> !done
  {
    if done then EndOfStream(false, true) else EndOfStream(true, true)
  }

  /** How many times `k` successive NULL-frame calls signal the encoder. */
  function SignalsAfter(done: bool, k: nat): nat
    decreases k
  {
    if k == 0 then 0
    else
      var e := FlushCall(done);
      (if e.signalled then 1 else 0) + SignalsAfter(e.done, k - 1)
  }

  /** However often the host flushes, the encoder is told to drain at most
      once per session, and exactly once if it was not told before. */
  lemma {:induction false} EndOfStreamSignalledOnce(done: bool, k: nat)
    ensures SignalsAfter(done, k) == (if k == 0 || done then 0 else 1)
    decreases k
  {
    if k > 0 {
      EndOfStreamSignalledOnce(true, k - 1);
    }
  }

  /** One strided source plane: `frame->data[k]` points `origin` bytes into
      the allocation `data`, and row `i` starts `linesize` bytes after row
      `i - 1`. The stride is a C `int` and may be negative (a vertically
      flipped frame, whose rows lie at decreasing addresses). */
  datatype Plane = Plane(data: seq<byte>, origin: nat, linesize: int)

  /** `frame->data[k] + frame->linesize[k] * i`, as an offset into `data`. */
  function RowStart(p: Plane, i: nat): int
  {
    p.origin + i * p.linesize
  }

  /** Row `i` of `rowLen` bytes lies inside the plane's allocation. */
  predicate RowInside(p: Plane, i: nat, rowLen: nat)
  {
    0 <= RowStart(p, i) && RowStart(p, i) + rowLen <= |p.data|
  }

  /** The plane holds `rows` rows of `rowLen` readable bytes. */
  predicate Covers(p: Plane, rowLen: nat, rows: nat)
  {
    forall i :: 0 <= i < rows ==> RowInside(p, i, rowLen)
  }

  /** The `rowLen` bytes `memcpy` reads from row `i` of a strided plane. */
  function SourceRow(p: Plane, i: nat, rowLen: nat): (row: seq<byte>)
    requires RowInside(p, i, rowLen)
    ensures |row| == rowLen
    ensures forall k :: 0 <= k < rowLen ==> row[k] == p.data[RowStart(p, i) + k]
  {
    p.data[RowStart(p, i)..RowStart(p, i) + rowLen]
  }

  function YPlaneSize(w: nat, h: nat): nat { h * w }
  function UvPlaneSize(w: nat, h: nat): nat { (h / 2) * (w / 2) }
  function PackedSize(w: nat, h: nat): nat { YPlaneSize(w, h) + UvPlaneSize(w, h) + UvPlaneSize(w, h) }

  /** Where row `i` of a run of `len`-byte rows packed from `base` starts. */
  function RowOffset(base: nat, i: nat, len: nat): nat
  {
    base + i * len
  }

  /** Where row `i` of each plane lands in the packed buffer. */
  function YRow(w: nat, i: nat): nat { RowOffset(0, i, w) }
  function URow(w: nat, h: nat, i: nat): nat { RowOffset(YPlaneSize(w, h), i, w / 2) }
  function VRow(w: nat, h: nat, i: nat): nat { RowOffset(YPlaneSize(w, h) + UvPlaneSize(w, h), i, w / 2) }

  lemma {:induction false} MulMono(a: nat, b: nat, c: nat)
    requires a <= b
    ensures a * c <= b * c
    decreases c
  {
    if c > 0 {
      MulMono(a, b, c - 1);
      assert a * c == a * (c - 1) + a;
      assert b * c == b * (c - 1) + b;
    }
  }

  /** Row `i` ends where any later row `j` starts. */
  lemma RowEnd(i: nat, j: nat, len: nat)
    requires i < j
    ensures i * len + len <= j * len
  {
    MulMono(i + 1, j, len);
    assert (i + 1) * len == i * len + len;
  }

  /** `rows` rows of `len` bytes packed from `base` stay inside
      `[base, base + rows * len)` and do not overlap. */
  lemma RowsTile(base: nat, len: nat, rows: nat)
    ensures forall i :: 0 <= i < rows ==>
      base <= RowOffset(base, i, len) && RowOffset(base, i, len) + len <= base + rows * len
    ensures forall i, j :: 0 <= i < j < rows ==> RowOffset(base, i, len) + len <= RowOffset(base, j, len)
  {
    forall i | 0 <= i < rows ensures RowOffset(base, i, len) + len <= base + rows * len {
      RowEnd(i, rows, len);
    }
    forall i, j | 0 <= i < j < rows ensures RowOffset(base, i, len) + len <= RowOffset(base, j, len) {
      RowEnd(i, j, len);
    }
  }

  /** Each plane's rows stay inside that plane's region, the regions follow
      one another and end at the packed size, and no two rows of a plane
      overlap. */
  lemma PlaneLayoutDisjoint(w: nat, h: nat)
    ensures forall i :: 0 <= i < h ==> YRow(w, i) + w <= YPlaneSize(w, h)
    ensures forall i :: 0 <= i < h / 2 ==>
      YPlaneSize(w, h) <= URow(w, h, i) && URow(w, h, i) + w / 2 <= YPlaneSize(w, h) + UvPlaneSize(w, h)
    ensures forall i :: 0 <= i < h / 2 ==>
      YPlaneSize(w, h) + UvPlaneSize(w, h) <= VRow(w, h, i) && VRow(w, h, i) + w / 2 <= PackedSize(w, h)
    ensures forall i, j :: 0 <= i < j < h ==> YRow(w, i) + w <= YRow(w, j)
    ensures forall i, j :: 0 <= i < j < h / 2 ==> URow(w, h, i) + w / 2 <= URow(w, h, j)
    ensures forall i, j :: 0 <= i < j < h / 2 ==> VRow(w, h, i) + w / 2 <= VRow(w, h, j)
  {
    RowsTile(0, w, h);
    RowsTile(YPlaneSize(w, h), w / 2, h / 2);
    RowsTile(YPlaneSize(w, h) + UvPlaneSize(w, h), w / 2, h / 2);
  }

  /** A bottom-up frame (`data[k]` at the last row of its allocation, negative
      `linesize`) is a valid source: row `i` is read from row `rows - 1 - i`
      of the allocation, so the packed picture comes out flipped upright. */
  lemma BottomUpPlaneRows(data: seq<byte>, stride: nat, rowLen: nat, rows: nat)
    requires 0 < rows && rowLen <= stride <= |data| && |data| == rows * stride
    ensures var p := Plane(data, |data| - stride, -(stride as int));
      && Covers(p, rowLen, rows)
      && forall i :: 0 <= i < rows ==> RowStart(p, i) == (rows - 1 - i) * stride
  {
    var p := Plane(data, |data| - stride, -(stride as int));
    forall i | 0 <= i < rows
      ensures RowStart(p, i) == (rows - 1 - i) * stride && RowInside(p, i, rowLen)
    {
      assert rows * stride - stride - i * stride == (rows - 1 - i) * stride;
      RowEnd(rows - 1 - i, rows, stride);
    }
  }

  /** `b` holds the `rows` rows of plane `p`, `rowLen` bytes each, packed
      back to back from offset `base`. */
  predicate RowsAt(b: seq<byte>, base: nat, p: Plane, rowLen: nat, rows: nat)
    requires Covers(p, rowLen, rows)
  {
    forall i :: 0 <= i < rows ==>
      && RowOffset(base, i, rowLen) + rowLen <= |b|
      && b[RowOffset(base, i, rowLen)..RowOffset(base, i, rowLen) + rowLen] == SourceRow(p, i, rowLen)
  }

  /** A slice inside a prefix of `b'` is the same slice of that prefix. */
  lemma SliceOfPrefix(b: seq<byte>, b': seq<byte>, lo: nat, hi: nat)
    requires lo <= hi <= |b| <= |b'| && b'[..|b|] == b
    ensures b'[lo..hi] == b[lo..hi]
  {
    forall k | 0 <= k < hi - lo ensures b'[lo..hi][k] == b[lo..hi][k] {
      assert b'[lo + k] == b'[..|b|][lo + k];
    }
  }

  /** Appending after the packed rows does not disturb them. */
  lemma RowsAtSurviveAppend(b: seq<byte>, b': seq<byte>, base: nat, p: Plane, rowLen: nat, rows: nat)
    requires Covers(p, rowLen, rows) && RowsAt(b, base, p, rowLen, rows)
    requires |b| <= |b'| && b'[..|b|] == b
    ensures RowsAt(b', base, p, rowLen, rows)
  {
    forall i | 0 <= i < rows
      ensures b'[RowOffset(base, i, rowLen)..RowOffset(base, i, rowLen) + rowLen] == SourceRow(p, i, rowLen)
    {
      SliceOfPrefix(b, b', RowOffset(base, i, rowLen), RowOffset(base, i, rowLen) + rowLen);
    }
  }

  /** The row loops of `VC1_frame`: append `rows` rows of `rowLen` bytes. */
  method CopyRows(b: seq<byte>, p: Plane, rowLen: nat, rows: nat) returns (b': seq<byte>)
    requires Covers(p, rowLen, rows)
    ensures |b'| == |b| + rows * rowLen
    ensures b'[..|b|] == b
    ensures RowsAt(b', |b|, p, rowLen, rows)
  {
    b' := b;
    var i := 0;
    while i < rows
      invariant 0 <= i <= rows
      invariant |b'| == RowOffset(|b|, i, rowLen)
      invariant b'[..|b|] == b
      invariant RowsAt(b', |b|, p, rowLen, i)
    {
      var row := SourceRow(p, i, rowLen);
      var prev := b';
      b' := b' + row;
      assert RowOffset(|b|, i + 1, rowLen) == RowOffset(|b|, i, rowLen) + rowLen;
      assert b'[..|prev|] == prev;
      RowsAtSurviveAppend(prev, b', |b|, p, rowLen, i);
      assert b'[RowOffset(|b|, i, rowLen)..RowOffset(|b|, i, rowLen) + rowLen] == row;
      i := i + 1;
    }
  }

  /** The plane copy of `VC1_frame`: a buffer of exactly
      `w*h + 2*(w/2)*(h/2)` bytes holding every Y, U and V row at its I420
      offset (`YRow`, `URow`, `VRow`), independent of the source strides. */
  method PackI420(w: nat, h: nat, y: Plane, u: Plane, v: Plane) returns (b: seq<byte>)
    requires Covers(y, w, h) && Covers(u, w / 2, h / 2) && Covers(v, w / 2, h / 2)
    ensures |b| == PackedSize(w, h)
    ensures RowsAt(b, 0, y, w, h)
    ensures RowsAt(b, YPlaneSize(w, h), u, w / 2, h / 2)
    ensures RowsAt(b, YPlaneSize(w, h) + UvPlaneSize(w, h), v, w / 2, h / 2)
  {
    var withY := CopyRows([], y, w, h);
    var withU := CopyRows(withY, u, w / 2, h / 2);
    b := CopyRows(withU, v, w / 2, h / 2);
    RowsAtSurviveAppend(withY, withU, 0, y, w, h);
    RowsAtSurviveAppend(withU, b, 0, y, w, h);
    RowsAtSurviveAppend(withU, b, YPlaneSize(w, h), u, w / 2, h / 2);
  }
}

=== FILE: ring.dfy ===
/**
 The reorder ring of the Main Concept VC1 adapter (libavcodec/libmcvc1.c):
 ten fixed slots that the encoder fills through the bufstream callbacks
 (`request`/`confirm`/`copybytes`/`auxinfo`) and the host drains with
 `read_frame`. Each callback is a pure transition on an immutable `Ring`.
 */
module ReorderRing {
  import opened BufStream

  const BUFFER_SIZE: nat := 1000000
  const NUM_FRAMES: nat := 10
  /** `write_idx` is a `uint32_t` initialised to -1. */
  const NO_WRITE_SLOT: uint32 := 0xFFFF_FFFF
  /** Sentinel meaning "clock offset not yet established". */
  const PTS_DIFF_UNSET: int := -1

  /** One `encoder_frame`: its 1 MB payload buffer, the committed byte count,
      the access unit's flags and picture type, and the three timestamps. */
  datatype Slot = Slot(
    bytes: seq<byte>,
    dataSize: uint32,
    flags: uint16,
    picType: uint16,
    originalPts: int,
    pts: int,
    dts: int,
    populated: bool)

  /** The `frame_buffer`. */
  datatype Ring = Ring(
    slots: seq<Slot>,
    readIdx: uint32,
    writeIdx: uint32,
    chunkSize: uint32,
    timeBase: Rational,
    ptsDiff: int)

  predicate SlotShaped(sl: Slot)
  {
    |sl.bytes| == BUFFER_SIZE
  }

  /** Ten slots of full-size buffers; the read cursor on a slot; the write
      cursor on a slot or still at its initial -1. */
  predicate Valid(r: Ring)
  {
    && |r.slots| == NUM_FRAMES
    && (forall k :: 0 <= k < |r.slots| ==> SlotShaped(r.slots[k]))
    && r.readIdx < NUM_FRAMES
    && (r.writeIdx < NUM_FRAMES || r.writeIdx == NO_WRITE_SLOT)
  }

  /** A `request` has happened, so `frames[write_idx]` is a real slot. */
  predicate HasWriteSlot(r: Ring)
  {
    Valid(r) && r.writeIdx < NUM_FRAMES
  }

  /** `(write_idx + 1) % NUM_FRAMES` evaluated on `uint32_t`. */
  function NextWrite(w: uint32): (n: uint32)
    ensures n < NUM_FRAMES
    ensures w < NUM_FRAMES ==> n == (w + 1) % NUM_FRAMES
    ensures w == NO_WRITE_SLOT ==> n == 0
  {
    U32Add(w, 1) % NUM_FRAMES
  }

  /** `init_mem_buf_write`: `garbage` is what `malloc` left in the slots. */
  function Init(garbage: seq<Slot>, timeBase: Rational): (r: Ring)
    requires |garbage| == NUM_FRAMES
    requires forall k :: 0 <= k < |garbage| ==> SlotShaped(garbage[k])
    ensures Valid(r)
    ensures r.readIdx == 0 && r.writeIdx == NO_WRITE_SLOT
    ensures NextWrite(r.writeIdx) == 0
    ensures r.ptsDiff == PTS_DIFF_UNSET
    ensures r.chunkSize == BUFFER_SIZE / 2 && r.timeBase == timeBase
    ensures forall k :: 0 <= k < NUM_FRAMES ==> !r.slots[k].populated
    ensures forall k :: 0 <= k < NUM_FRAMES ==> r.slots[k] == garbage[k].(populated := false)
  {
    var slots := seq(NUM_FRAMES, k requires 0 <= k < NUM_FRAMES => garbage[k].(populated := false));
    assert forall k :: 0 <= k < NUM_FRAMES ==> SlotShaped(slots[k]) by {
      forall k | 0 <= k < NUM_FRAMES ensures SlotShaped(slots[k]) {
        assert SlotShaped(garbage[k]);
      }
    }
    Ring(slots, 0, NO_WRITE_SLOT, BUFFER_SIZE / 2, timeBase, PTS_DIFF_UNSET)
  }

  /** Result of `read_frame`: the slot the returned pointer shows, if any. */
  datatype Polled = Polled(frame: Option<Slot>, ring: Ring)

  /** `read_frame`: hand back the slot under the read cursor if it is
      populated, clearing its flag and advancing the cursor; otherwise NULL. */
  function ReadFrame(r: Ring): (p: Polled)
    requires Valid(r)
    ensures Valid(p.ring)
    ensures !r.slots[r.readIdx].populated ==> p.frame.None? && p.ring == r
    ensures r.slots[r.readIdx].populated ==>
      && p.frame == Some(r.slots[r.readIdx].(populated := false))
      && p.ring.readIdx == (r.readIdx + 1) % NUM_FRAMES
      && p.ring.slots[r.readIdx] == r.slots[r.readIdx].(populated := false)
      && (forall k :: 0 <= k < NUM_FRAMES && k != r.readIdx ==> p.ring.slots[k] == r.slots[k])
      && p.ring.writeIdx == r.writeIdx && p.ring.ptsDiff == r.ptsDiff
      && p.ring.chunkSize == r.chunkSize && p.ring.timeBase == r.timeBase
  {
    var idx := r.readIdx;
    if r.slots[idx].populated then
      var taken := r.slots[idx].(populated := false);
      Polled(Some(taken), r.(readIdx := (r.readIdx + 1) % NUM_FRAMES, slots := r.slots[idx := taken]))
    else
      Polled(None, r)
  }

  /** Result of `request`: the slot whose buffer the returned pointer names. */
  datatype Granted = Granted(slot: nat, ring: Ring)

  /** `request`: advance the write cursor and mark that slot populated. The
      read cursor is never consulted. */
  function Request(r: Ring): (g: Granted)
    requires Valid(r)
    ensures HasWriteSlot(g.ring)
    ensures g.slot == g.ring.writeIdx == NextWrite(r.writeIdx)
    ensures g.ring.slots[g.slot] == r.slots[g.slot].(populated := true)
    ensures forall k :: 0 <= k < NUM_FRAMES && k != g.slot ==> g.ring.slots[k] == r.slots[k]
    ensures g.ring.readIdx == r.readIdx && g.ring.ptsDiff == r.ptsDiff
    ensures g.ring.chunkSize == r.chunkSize && g.ring.timeBase == r.timeBase
  {
    var w := NextWrite(r.writeIdx);
    Granted(w, r.(writeIdx := w, slots := r.slots[w := r.slots[w].(populated := true)]))
  }

  /** Result of a callback that returns a byte count. */
  datatype Counted = Counted(count: uint32, ring: Ring)

  /** `confirm`: record the committed byte count in the current write slot. */
  function Confirm(r: Ring, numbytes: uint32): (c: Counted)
    requires HasWriteSlot(r)
    ensures HasWriteSlot(c.ring) && c.count == numbytes
    ensures c.ring.slots[r.writeIdx] == r.slots[r.writeIdx].(dataSize := numbytes)
    ensures forall k :: 0 <= k < NUM_FRAMES && k != r.writeIdx ==> c.ring.slots[k] == r.slots[k]
    ensures c.ring.readIdx == r.readIdx && c.ring.writeIdx == r.writeIdx
    ensures c.ring.ptsDiff == r.ptsDiff && c.ring.chunkSize == r.chunkSize
    ensures c.ring.timeBase == r.timeBase
  {
    var w := r.writeIdx;
    Counted(numbytes, r.(slots := r.slots[w := r.slots[w].(dataSize := numbytes)]))
  }

  /** The encoder writing `data` through the pointer `request` returned (the
      `memcpy` of `copybytes`): the bytes land at the start of the current
      write slot's buffer. */
  function Fill(r: Ring, data: seq<byte>): (r': Ring)
    requires HasWriteSlot(r) && |data| <= BUFFER_SIZE
    ensures HasWriteSlot(r')
    ensures r'.slots[r.writeIdx].bytes[..|data|] == data
    ensures r'.slots[r.writeIdx].bytes[|data|..] == r.slots[r.writeIdx].bytes[|data|..]
    ensures r'.slots[r.writeIdx] == r.slots[r.writeIdx].(bytes := r'.slots[r.writeIdx].bytes)
    ensures forall k :: 0 <= k < NUM_FRAMES && k != r.writeIdx ==> r'.slots[k] == r.slots[k]
    ensures r'.readIdx == r.readIdx && r'.writeIdx == r.writeIdx
    ensures r'.ptsDiff == r.ptsDiff && r'.chunkSize == r.chunkSize && r'.timeBase == r.timeBase
  {
    var w := r.writeIdx;
    r.(slots := r.slots[w := r.slots[w].(bytes := CopyInto(r.slots[w].bytes, 0, data))])
  }

  /** `copybytes`: request a slot, copy `data` into it, confirm `|data|`.
      `request` here never returns NULL, so the 0 result is unreachable. The
      caller must not hand over more than a slot holds. */
  function CopyBytes(r: Ring, data: seq<byte>): (c: Counted)
    requires Valid(r) && |data| <= BUFFER_SIZE
    ensures HasWriteSlot(c.ring)
    ensures c.count == |data|
    ensures c.ring.writeIdx == NextWrite(r.writeIdx)
    ensures var sl := c.ring.slots[c.ring.writeIdx];
      sl.populated && sl.dataSize == |data| && sl.bytes[..|data|] == data
    ensures c.ring.slots[c.ring.writeIdx] ==
      r.slots[c.ring.writeIdx].(populated := true, dataSize := |data|,
                                bytes := CopyInto(r.slots[c.ring.writeIdx].bytes, 0, data))
    ensures forall k :: 0 <= k < NUM_FRAMES && k != c.ring.writeIdx ==> c.ring.slots[k] == r.slots[k]
    ensures c.ring.readIdx == r.readIdx && c.ring.ptsDiff == r.ptsDiff
    ensures c.ring.chunkSize == r.chunkSize && c.ring.timeBase == r.timeBase
  {
    var g := Request(r);
    var filled := Fill(g.ring, data);
    Confirm(filled, |data|)
  }

  /** What `auxinfo` hands back: its return status, and the value written
      through the byte-count pointer when it writes one. */
  datatype AuxReply = AuxReply(status: AuxStatus, reported: Option<uint32>, ring: Ring)

  /** The info kinds that touch `frames[write_idx]`. */
  predicate UsesWriteSlot(info: AuxRecord)
  {
    info.TimeStampInfo? || info.VideoAuCode?
  }

  /** `auxinfo`. The timestamp record stores the rescaled original pts in the
      write slot; the access-unit record copies flags and type, sets pts to the
      stored original and dts to the rescaled encoder dts plus the clock
      offset, freezing that offset on first use. The byte-count query reports
      the read slot's size; every other kind is ignored. Always `BS_OK`. */
  function AuxInfo(r: Ring, info: AuxRecord, rescale: Rescaler): (a: AuxReply)
    requires Valid(r)
    requires UsesWriteSlot(info) ==> r.writeIdx < NUM_FRAMES
    ensures Valid(a.ring) && a.status == BsOk
    ensures a.ring.readIdx == r.readIdx && a.ring.writeIdx == r.writeIdx
    ensures a.ring.chunkSize == r.chunkSize && a.ring.timeBase == r.timeBase
    ensures WantsByteCount(info) ==> a.reported == Some(r.slots[r.readIdx].dataSize)
    ensures !WantsByteCount(info) ==> a.reported.None?
    ensures !UsesWriteSlot(info) ==> a.ring == r
    ensures forall k :: 0 <= k < NUM_FRAMES && k != r.writeIdx ==> a.ring.slots[k] == r.slots[k]
    ensures forall k :: 0 <= k < NUM_FRAMES ==> a.ring.slots[k].populated == r.slots[k].populated
    ensures info.TimeStampInfo? ==>
      && a.ring.slots[r.writeIdx] ==
         r.slots[r.writeIdx].(originalPts := rescale(info.rtStart, HUNDRED_NANOS, r.timeBase))
      && a.ring.ptsDiff == r.ptsDiff
    ensures info.VideoAuCode? ==>
      var orig := r.slots[r.writeIdx].originalPts;
      var encPts := rescale(info.au.pts, TWENTY_SEVEN_MHZ, r.timeBase);
      var encDts := rescale(info.au.dts, TWENTY_SEVEN_MHZ, r.timeBase);
      && a.ring.ptsDiff == (if r.ptsDiff == PTS_DIFF_UNSET then orig - encPts else r.ptsDiff)
      && a.ring.slots[r.writeIdx] ==
         r.slots[r.writeIdx].(flags := info.au.flags, picType := info.au.picType,
                              pts := orig, dts := encDts + a.ring.ptsDiff)
  {
    match info
    case ByteCountInfo(hasTarget, infoSize) =>
      AuxReply(BsOk, if hasTarget && infoSize == 4 then Some(r.slots[r.readIdx].dataSize) else None, r)
    case TimeStampInfo(rtStart) =>
      var w := r.writeIdx;
      var orig := rescale(rtStart, HUNDRED_NANOS, r.timeBase);
      AuxReply(BsOk, None, r.(slots := r.slots[w := r.slots[w].(originalPts := orig)]))
    case VideoAuCode(au) =>
      var w := r.writeIdx;
      var encPts := rescale(au.pts, TWENTY_SEVEN_MHZ, r.timeBase);
      var encDts := rescale(au.dts, TWENTY_SEVEN_MHZ, r.timeBase);
      var orig := r.slots[w].originalPts;
      var diff := if r.ptsDiff == PTS_DIFF_UNSET then orig - encPts else r.ptsDiff;
      var sl := r.slots[w].(flags := au.flags, picType := au.picType, pts := orig, dts := encDts + diff);
      AuxReply(BsOk, None, r.(ptsDiff := diff, slots := r.slots[w := sl]))
    case _ =>
      AuxReply(BsOk, None, r)
  }
}

=== FILE: ring_props.dfy ===
/**
 Properties of the reorder ring (libavcodec/libmcvc1.c) that span several
 callbacks: the window of unread units and how `request` and `read_frame`
 move it, draining in order, the clock offset that freezes once, and the
 original pts surviving from the timestamp record to the access unit.
 */
module RingProperties {
  import opened BufStream
  import opened ReorderRing

  /** How many steps forward from slot `from` the slot `to` lies. */
  function Ahead(from: nat, to: nat): (d: nat)
    requires from < NUM_FRAMES && to < NUM_FRAMES
    ensures d < NUM_FRAMES
  {
    if from <= to then to - from else to + NUM_FRAMES - from
  }

  /** Advancing the cursor by one brings every other slot one step nearer. */
  lemma AheadOfNext(from: nat, to: nat)
    requires from < NUM_FRAMES && to < NUM_FRAMES
    ensures to != from ==> Ahead((from + 1) % NUM_FRAMES, to) == Ahead(from, to) - 1
    ensures to == from ==> Ahead((from + 1) % NUM_FRAMES, to) == NUM_FRAMES - 1
  {
  }

  /** The slot `n < 10` steps past `from` lies `n` steps ahead of it. */
  lemma AheadOfOffset(from: nat, n: nat)
    requires from < NUM_FRAMES && n < NUM_FRAMES
    ensures Ahead(from, (from + n) % NUM_FRAMES) == n
  {
    if from + n >= NUM_FRAMES {
      assert (from + n) % NUM_FRAMES == from + n - NUM_FRAMES;
    }
  }

  /** Walking `Ahead(from, to)` steps from `from` reaches `to`. */
  lemma OffsetOfAhead(from: nat, to: nat)
    requires from < NUM_FRAMES && to < NUM_FRAMES
    ensures (from + Ahead(from, to)) % NUM_FRAMES == to
  {
    if to < from {
      assert from + Ahead(from, to) == to + NUM_FRAMES;
    }
  }

  /** The ring holds `n` unread units: exactly the `n` slots from the read
      cursor onward are populated, and the next `request` lands just past
      them. */
  predicate Window(r: Ring, n: nat)
  {
    && Valid(r)
    && n <= NUM_FRAMES
    && NextWrite(r.writeIdx) == (r.readIdx + n) % NUM_FRAMES
    && forall k :: 0 <= k < NUM_FRAMES ==> (r.slots[k].populated <==> Ahead(r.readIdx, k) < n)
  }

  /** A fresh ring is empty, and its first `request` lands on slot 0. */
  lemma InitIsEmpty(garbage: seq<Slot>, timeBase: Rational)
    requires |garbage| == NUM_FRAMES
    requires forall k :: 0 <= k < |garbage| ==> SlotShaped(garbage[k])
    ensures Window(Init(garbage, timeBase), 0)
    ensures Request(Init(garbage, timeBase)).slot == 0
  {
  }

  /** `request` with fewer than ten unread units appends a unit just past the
      newest one. */
  lemma RequestExtendsWindow(r: Ring, n: nat)
    requires Window(r, n) && n < NUM_FRAMES
    ensures Request(r).slot == (r.readIdx + n) % NUM_FRAMES
    ensures Window(Request(r).ring, n + 1)
  {
    var g := Request(r);
    var w := g.slot;
    assert w == (r.readIdx + n) % NUM_FRAMES;
    forall k | 0 <= k < NUM_FRAMES
      ensures g.ring.slots[k].populated <==> Ahead(r.readIdx, k) < n + 1
    {
      if k == w {
        AheadOfOffset(r.readIdx, n);
      } else {
        OffsetOfAhead(r.readIdx, k);
        assert g.ring.slots[k] == r.slots[k];
      }
    }
    CursorSucc(r.readIdx + n);
  }

  /** One step past slot `x mod 10` is slot `(x + 1) mod 10`. */
  lemma CursorSucc(x: nat)
    ensures (x % NUM_FRAMES + 1) % NUM_FRAMES == (x + 1) % NUM_FRAMES
  {
  }

  /** `request` never looks at the read cursor: with ten unread units it
      hands the encoder the oldest unread slot, whose unit is then lost. */
  lemma RequestOverrunsOldest(r: Ring)
    requires Window(r, NUM_FRAMES)
    ensures Request(r).slot == r.readIdx
    ensures r.slots[r.readIdx].populated
  {
    assert Ahead(r.readIdx, r.readIdx) == 0;
  }

  /** A transition that moves neither cursor and flips no `populated` flag
      keeps the window. */
  lemma SameFlagsKeepWindow(r: Ring, r': Ring, n: nat)
    requires Window(r, n) && Valid(r')
    requires r'.readIdx == r.readIdx && r'.writeIdx == r.writeIdx
    requires forall k :: 0 <= k < NUM_FRAMES ==> r'.slots[k].populated == r.slots[k].populated
    ensures Window(r', n)
  {
  }

  /** `confirm`, the encoder's writes, and every `auxinfo` record leave the
      window of unread units as it was. */
  lemma CallbacksKeepWindow(r: Ring, n: nat, numbytes: uint32, data: seq<byte>, info: AuxRecord, rescale: Rescaler)
    requires Window(r, n) && r.writeIdx < NUM_FRAMES && |data| <= BUFFER_SIZE
    ensures Window(Confirm(r, numbytes).ring, n)
    ensures Window(Fill(r, data), n)
    ensures Window(AuxInfo(r, info, rescale).ring, n)
  {
    SameFlagsKeepWindow(r, Confirm(r, numbytes).ring, n);
    SameFlagsKeepWindow(r, Fill(r, data), n);
    SameFlagsKeepWindow(r, AuxInfo(r, info, rescale).ring, n);
  }

  /** Moving the read cursor changes nothing about what `request` does. */
  lemma RequestIgnoresReader(r: Ring, readIdx: uint32)
    requires Valid(r) && readIdx < NUM_FRAMES
    ensures Request(r.(readIdx := readIdx)).slot == Request(r).slot
    ensures Request(r.(readIdx := readIdx)).ring == Request(r).ring.(readIdx := readIdx)
  {
  }

  /** `read_frame` with unread units hands back the oldest and shrinks the
      window by one. */
  lemma ReadShrinksWindow(r: Ring, n: nat)
    requires Window(r, n) && n > 0
    ensures ReadFrame(r).frame == Some(r.slots[r.readIdx].(populated := false))
    ensures Window(ReadFrame(r).ring, n - 1)
  {
    assert Ahead(r.readIdx, r.readIdx) == 0;
    var p := ReadFrame(r);
    var next := p.ring.readIdx;
    assert next == (r.readIdx + 1) % NUM_FRAMES;
    forall k | 0 <= k < NUM_FRAMES
      ensures p.ring.slots[k].populated <==> Ahead(next, k) < n - 1
    {
      AheadOfNext(r.readIdx, k);
    }
    CursorStep(r.readIdx, n);
  }

  /** Stepping the cursor once and then `n - 1` times is stepping it `n`
      times. */
  lemma CursorStep(a: nat, n: nat)
    requires a < NUM_FRAMES && 0 < n <= NUM_FRAMES
    ensures ((a + 1) % NUM_FRAMES + (n - 1)) % NUM_FRAMES == (a + n) % NUM_FRAMES
  {
    if a + 1 == NUM_FRAMES {
      assert (a + 1) % NUM_FRAMES == 0;
    }
  }

  /** A slot is readable from the moment `request` marks it: on an empty
      ring, a poll right after the request, before any confirm, write or
      record, returns that slot with whatever size and timestamps it held. */
  lemma RequestedSlotReadableAtOnce(r: Ring)
    requires Window(r, 0)
    ensures var g := Request(r);
      ReadFrame(g.ring).frame == Some(r.slots[g.slot])
  {
    RequestExtendsWindow(r, 0);
    ReadShrinksWindow(Request(r).ring, 1);
  }

  /** Polling an empty ring returns nothing and changes nothing, however
      often it is repeated. */
  lemma EmptyPollIsIdempotent(r: Ring)
    requires Window(r, 0)
    ensures ReadFrame(r).frame.None?
    ensures ReadFrame(r).ring == r
    ensures ReadFrame(ReadFrame(r).ring) == ReadFrame(r)
  {
    assert Ahead(r.readIdx, r.readIdx) == 0;
  }

  /** What `k` successive `read_frame` calls return. */
  datatype Drained = Drained(frames: seq<Slot>, ring: Ring)

  function PollTimes(r: Ring, k: nat): (d: Drained)
    requires Valid(r)
    ensures Valid(d.ring)
    ensures |d.frames| <= k
    decreases k
  {
    if k == 0 then Drained([], r)
    else
      var p := ReadFrame(r);
      var rest := PollTimes(p.ring, k - 1);
      Drained((if p.frame.Some? then [p.frame.value] else []) + rest.frames, rest.ring)
  }

  /** Draining a ring with `n` unread units returns exactly those units, in
      the order `request` handed out their slots, and leaves it empty. */
  lemma {:induction false} DrainReturnsWindowInOrder(r: Ring, n: nat)
    requires Window(r, n)
    ensures |PollTimes(r, n).frames| == n
    ensures forall i :: 0 <= i < n ==>
      PollTimes(r, n).frames[i] == r.slots[(r.readIdx + i) % NUM_FRAMES].(populated := false)
    ensures Window(PollTimes(r, n).ring, 0)
    ensures ReadFrame(PollTimes(r, n).ring).frame.None?
    decreases n
  {
    if n == 0 {
      EmptyPollIsIdempotent(r);
    } else {
      ReadShrinksWindow(r, n);
      var q := ReadFrame(r).ring;
      DrainReturnsWindowInOrder(q, n - 1);
      var rest := PollTimes(q, n - 1);
      DrainUnfold(r, n);
      FramesInOrder(r, q, PollTimes(r, n).frames, rest.frames, n);
      EmptyPollIsIdempotent(rest.ring);
    }
  }

  /** One poll of a ring whose oldest slot is unread, followed by `n - 1`
      more. */
  lemma DrainUnfold(r: Ring, n: nat)
    requires Valid(r) && r.slots[r.readIdx].populated && n > 0
    ensures var q := ReadFrame(r).ring;
      PollTimes(r, n) == Drained([r.slots[r.readIdx].(populated := false)] + PollTimes(q, n - 1).frames, PollTimes(q, n - 1).ring)
  {
  }

  /** The oldest unit in front of the in-order units of the ring one poll
      later is the in-order sequence of `r`. */
  lemma FramesInOrder(r: Ring, q: Ring, frames: seq<Slot>, rest: seq<Slot>, n: nat)
    requires Valid(r) && r.slots[r.readIdx].populated && 0 < n <= NUM_FRAMES
    requires q == ReadFrame(r).ring
    requires frames == [r.slots[r.readIdx].(populated := false)] + rest
    requires |rest| == n - 1
    requires forall i :: 0 <= i < n - 1 ==> rest[i] == q.slots[(q.readIdx + i) % NUM_FRAMES].(populated := false)
    ensures |frames| == n
    ensures forall i :: 0 <= i < n ==> frames[i] == r.slots[(r.readIdx + i) % NUM_FRAMES].(populated := false)
  {
    forall i | 0 <= i < n
      ensures frames[i] == r.slots[(r.readIdx + i) % NUM_FRAMES].(populated := false)
    {
      if i == 0 {
        assert (r.readIdx + 0) % NUM_FRAMES == r.readIdx;
      } else {
        assert frames[i] == rest[i - 1];
        DrainStep(r, i);
      }
    }
  }

  /** The `i`-th unit behind the read cursor is the `(i-1)`-th once the
      cursor has moved past the oldest. */
  lemma DrainStep(r: Ring, i: nat)
    requires Valid(r) && r.slots[r.readIdx].populated && 0 < i < NUM_FRAMES
    ensures var p := ReadFrame(r);
      p.ring.slots[(p.ring.readIdx + (i - 1)) % NUM_FRAMES] == r.slots[(r.readIdx + i) % NUM_FRAMES]
  {
    var p := ReadFrame(r);
    var j := (r.readIdx + i) % NUM_FRAMES;
    CursorStep(r.readIdx, i);
    AheadOfOffset(r.readIdx, i);
    assert Ahead(r.readIdx, r.readIdx) == 0;
    assert j != r.readIdx;
  }

  /** Every callback the encoder makes, and the host's poll. */
  datatype Event =
    | Req
    | Conf(numbytes: uint32)
    | Write(data: seq<byte>)
    | Copy(data: seq<byte>)
    | Aux(info: AuxRecord)
    | Poll

  /** The event does not index the slot array out of bounds or overrun a
      slot's buffer. */
  predicate Enabled(r: Ring, e: Event)
  {
    && Valid(r)
    && match e
       case Req => true
       case Conf(_) => r.writeIdx < NUM_FRAMES
       case Write(data) => r.writeIdx < NUM_FRAMES && |data| <= BUFFER_SIZE
       case Copy(data) => |data| <= BUFFER_SIZE
       case Aux(info) => UsesWriteSlot(info) ==> r.writeIdx < NUM_FRAMES
       case Poll => true
  }

  function Step(r: Ring, e: Event, rescale: Rescaler): (r': Ring)
    requires Enabled(r, e)
    ensures Valid(r')
  {
    match e
    case Req => Request(r).ring
    case Conf(n) => Confirm(r, n).ring
    case Write(data) => Fill(r, data)
    case Copy(data) => CopyBytes(r, data).ring
    case Aux(info) => AuxInfo(r, info, rescale).ring
    case Poll => ReadFrame(r).ring
  }

  /** Run a sequence of events; `None` if one of them would be undefined
      behaviour in the source. */
  function Run(r: Ring, es: seq<Event>, rescale: Rescaler): (o: Option<Ring>)
    requires Valid(r)
    ensures o.Some? ==> Valid(o.value)
    decreases |es|
  {
    if es == [] then Some(r)
    else if !Enabled(r, es[0]) then None
    else Run(Step(r, es[0], rescale), es[1..], rescale)
  }

  /** The clock offset is assigned only by an access-unit record and only
      while it still holds the -1 sentinel. */
  lemma OffsetAssignedOnlyWhileUnset(r: Ring, e: Event, rescale: Rescaler)
    requires Enabled(r, e)
    requires Step(r, e, rescale).ptsDiff != r.ptsDiff
    ensures r.ptsDiff == PTS_DIFF_UNSET
    ensures e.Aux? && e.info.VideoAuCode?
  {
  }

  /** Once the clock offset holds anything but -1, no sequence of events
      changes it (nor the time base). */
  lemma {:induction false} FrozenOffsetPersists(r: Ring, es: seq<Event>, rescale: Rescaler)
    requires Valid(r) && r.ptsDiff != PTS_DIFF_UNSET
    requires Run(r, es, rescale).Some?
    ensures Run(r, es, rescale).value.ptsDiff == r.ptsDiff
    ensures Run(r, es, rescale).value.timeBase == r.timeBase
    decreases |es|
  {
    if es != [] {
      FrozenOffsetPersists(Step(r, es[0], rescale), es[1..], rescale);
    }
  }

  /** Every access unit after the offset froze gets
      `dts = rescaled encoder dts + the frozen offset`. */
  lemma LaterUnitsUseFrozenOffset(r: Ring, es: seq<Event>, au: AccessUnit, rescale: Rescaler)
    requires Valid(r) && r.ptsDiff != PTS_DIFF_UNSET
    requires Run(r, es, rescale).Some? && Run(r, es, rescale).value.writeIdx < NUM_FRAMES
    ensures var t := Run(r, es, rescale).value;
      AuxInfo(t, VideoAuCode(au), rescale).ring.slots[t.writeIdx].dts
        == rescale(au.dts, TWENTY_SEVEN_MHZ, r.timeBase) + r.ptsDiff
  {
    FrozenOffsetPersists(r, es, rescale);
  }

  /** The first access unit freezes `original pts - rescaled encoder pts`;
      but an offset that happens to be exactly -1 is indistinguishable from
      the sentinel, so the next unit computes it afresh. */
  lemma OffsetOfMinusOneIsRecomputed(r: Ring, au1: AccessUnit, au2: AccessUnit, rescale: Rescaler)
    requires HasWriteSlot(r) && r.ptsDiff == PTS_DIFF_UNSET
    requires r.slots[r.writeIdx].originalPts - rescale(au1.pts, TWENTY_SEVEN_MHZ, r.timeBase) == -1
    ensures var r1 := AuxInfo(r, VideoAuCode(au1), rescale).ring;
      && r1.ptsDiff == PTS_DIFF_UNSET
      && AuxInfo(r1, VideoAuCode(au2), rescale).ring.ptsDiff
         == r1.slots[r1.writeIdx].originalPts - rescale(au2.pts, TWENTY_SEVEN_MHZ, r.timeBase)
  {
  }

  /** Events that neither move the write cursor nor store a timestamp. */
  predicate KeepsTimestamp(e: Event)
  {
    !(e.Req? || e.Copy? || (e.Aux? && e.info.TimeStampInfo?))
  }

  /** Between a timestamp record and the next cursor move or timestamp, the
      write slot's stored original pts is untouched. */
  lemma {:induction false} OriginalPtsSurvives(r: Ring, es: seq<Event>, rescale: Rescaler)
    requires HasWriteSlot(r)
    requires forall i :: 0 <= i < |es| ==> KeepsTimestamp(es[i])
    requires Run(r, es, rescale).Some?
    ensures var t := Run(r, es, rescale).value;
      && t.writeIdx == r.writeIdx
      && t.timeBase == r.timeBase
      && t.slots[r.writeIdx].originalPts == r.slots[r.writeIdx].originalPts
    decreases |es|
  {
    if es != [] {
      assert KeepsTimestamp(es[0]);
      var r1 := Step(r, es[0], rescale);
      assert r1.writeIdx == r.writeIdx && r1.timeBase == r.timeBase;
      assert r1.slots[r.writeIdx].originalPts == r.slots[r.writeIdx].originalPts;
      assert forall i :: 0 <= i < |es[1..]| ==> KeepsTimestamp(es[1..][i]) by {
        forall i | 0 <= i < |es[1..]| ensures KeepsTimestamp(es[1..][i]) {
          assert es[1..][i] == es[i + 1];
        }
      }
      OriginalPtsSurvives(r1, es[1..], rescale);
    }
  }

  /** The pts of a unit is exactly the sample time (100 ns ticks) of the
      preceding timestamp record, rescaled once into the ring's time base,
      whatever confirms, writes, polls or other records come in between. */
  lemma PresentationTimestampFidelity(r: Ring, rtStart: int, es: seq<Event>, au: AccessUnit, rescale: Rescaler)
    requires HasWriteSlot(r)
    requires forall i :: 0 <= i < |es| ==> KeepsTimestamp(es[i])
    requires Run(AuxInfo(r, TimeStampInfo(rtStart), rescale).ring, es, rescale).Some?
    ensures var t := Run(AuxInfo(r, TimeStampInfo(rtStart), rescale).ring, es, rescale).value;
      && t.writeIdx == r.writeIdx
      && AuxInfo(t, VideoAuCode(au), rescale).ring.slots[r.writeIdx].pts
         == rescale(rtStart, HUNDRED_NANOS, r.timeBase)
  {
    var r1 := AuxInfo(r, TimeStampInfo(rtStart), rescale).ring;
    OriginalPtsSurvives(r1, es, rescale);
  }

  /** The ordering the fidelity statement depends on: a `request` between a
      timestamp record and its access-unit record moves the write cursor, so
      the unit is stamped with the next slot's leftover original pts, not with
      the sample time just recorded. */
  lemma RequestBetweenRecordsStampsStalePts(r: Ring, rtStart: int, au: AccessUnit, rescale: Rescaler)
    requires HasWriteSlot(r)
    ensures var r1 := AuxInfo(r, TimeStampInfo(rtStart), rescale).ring;
      var g := Request(r1);
      && g.slot != r.writeIdx
      && AuxInfo(g.ring, VideoAuCode(au), rescale).ring.slots[g.slot].pts
         == r.slots[g.slot].originalPts
  {
  }
}

=== FILE: staging.dfy ===
/**
 The two-level staging sink of libavcodec/main_concept_vc1.c: the encoder
 writes into an internal chunk buffer (`bfr`, `idx`, `bfr_size`), which
 spills into a bounded user buffer (`user_bfr`, `user_idx`,
 `user_bfr_size`) when a request no longer fits, when the byte count is
 queried, and when the stream is closed.
 */
module StagingBuffer {
  import opened BufStream

  /** Buffer sizes stay below 2^31, so `user_idx + idx` cannot wrap. */
  const SIZE_LIMIT: nat := 0x8000_0000

  /** The `impl_stream`; `userBfr` is `None` for a NULL user buffer. */
  datatype Stage = Stage(
    userBfr: Option<seq<byte>>,
    userBfrSize: uint32,
    userIdx: uint32,
    bfr: seq<byte>,
    idx: uint32,
    bfrSize: uint32,
    chunkSize: uint32)

  /** Buffers as large as their recorded sizes, both cursors inside their
      buffers, and a NULL user buffer never written to. */
  predicate Valid(s: Stage)
  {
    && |s.bfr| == s.bfrSize
    && (s.userBfr.Some? ==> |s.userBfr.value| == s.userBfrSize)
    && (s.userBfr.None? ==> s.userIdx == 0)
    && s.idx <= s.bfrSize
    && s.userIdx <= s.userBfrSize
    && s.bfrSize < SIZE_LIMIT
    && s.userBfrSize < SIZE_LIMIT
  }

  /** The bytes already spilled into the user buffer. */
  function Spilled(s: Stage): (out: seq<byte>)
    requires Valid(s)
    ensures |out| == s.userIdx
  {
    if s.userBfr.Some? then s.userBfr.value[..s.userIdx] else []
  }

  /** Every byte the encoder has committed, in order: the spilled bytes
      followed by those still in the chunk buffer. */
  function Staged(s: Stage): (out: seq<byte>)
    requires Valid(s)
    ensures |out| == s.userIdx + s.idx
  {
    Spilled(s) + s.bfr[..s.idx]
  }

  /** `init_mem_buf_write`: `buffer` is the caller's user buffer (or NULL) of
      `bufsize` bytes; `scratch` is what `malloc` left in the chunk buffer. */
  function Init(buffer: Option<seq<byte>>, bufsize: uint32, scratch: seq<byte>): (s: Stage)
    requires |scratch| == bufsize
    requires buffer.Some? ==> |buffer.value| == bufsize
    ensures s.idx == 0 && s.userIdx == 0
    ensures s.bfrSize == bufsize && s.chunkSize == bufsize && s.userBfrSize == bufsize
    ensures s.userBfr == buffer
    ensures bufsize < SIZE_LIMIT ==> Valid(s) && Staged(s) == []
  {
    Stage(buffer, bufsize, 0, scratch, 0, bufsize, bufsize)
  }

  /** `usable_bytes`: `bfr_size - idx` on `uint32_t`. */
  function UsableBytes(s: Stage): (n: uint32)
    ensures s.idx <= s.bfrSize ==> n == s.bfrSize - s.idx
    ensures s.bfrSize < s.idx ==> n == s.bfrSize - s.idx + UINT32_LIMIT
  {
    U32Sub(s.bfrSize, s.idx)
  }

  /** The fit test of `request`, `idx + numbytes <= bfr_size`, with the sum
      taken modulo 2^32. */
  predicate Fits(s: Stage, numbytes: uint32)
  {
    U32Add(s.idx, numbytes) <= s.bfrSize
  }

  /** The guard that keeps staged bytes out of the user buffer. */
  predicate SpillBlocked(s: Stage)
  {
    U32Add(s.userIdx, s.idx) > s.userBfrSize || s.userBfr.None?
  }

  /** `request` gives up: the request does not fit, bytes are staged, and
      they cannot be spilled. */
  predicate Refuses(s: Stage, numbytes: uint32)
  {
    !Fits(s, numbytes) && s.idx != 0 && SpillBlocked(s)
  }

  /** Move the staged chunk into the user buffer behind what is there. */
  function Spill(s: Stage): (s': Stage)
    requires Valid(s) && s.userBfr.Some? && s.userIdx + s.idx <= s.userBfrSize
    ensures Valid(s')
    ensures s'.idx == 0 && s'.userIdx == s.userIdx + s.idx
    ensures Staged(s') == Staged(s)
    ensures s'.bfr == s.bfr && s'.bfrSize == s.bfrSize && s'.userBfrSize == s.userBfrSize
    ensures s'.chunkSize == s.chunkSize && s'.userBfr.Some?
    ensures s'.userBfr.value[s.userIdx + s.idx..] == s.userBfr.value[s.userIdx + s.idx..]
  {
    var u := CopyInto(s.userBfr.value, s.userIdx, s.bfr[..s.idx]);
    var s' := s.(userBfr := Some(u), userIdx := s.userIdx + s.idx, idx := 0);
    assert Spilled(s') == u[..s.userIdx + s.idx];
    assert u[..s.userIdx + s.idx] == u[..s.userIdx] + u[s.userIdx..s.userIdx + s.idx];
    s'
  }

  /** Result of `request`: the offset into `bfr` the returned pointer names. */
  datatype Requested = Requested(grant: Option<uint32>, stage: Stage)

  /** `request`: hand out the room after `idx` if the request fits; otherwise
      spill the staged bytes and hand out the whole chunk buffer, or return
      NULL, changing nothing, when they cannot be spilled. */
  function Request(s: Stage, numbytes: uint32): (q: Requested)
    requires Valid(s)
    ensures Valid(q.stage)
    ensures Staged(q.stage) == Staged(s)
    ensures q.stage.bfr == s.bfr && q.stage.bfrSize == s.bfrSize
    ensures q.stage.userBfrSize == s.userBfrSize && q.stage.chunkSize == s.chunkSize
    ensures q.grant.Some? ==> q.grant.value == q.stage.idx
    ensures Fits(s, numbytes) ==> q.grant == Some(s.idx) && q.stage == s
    ensures q.grant.None? <==> Refuses(s, numbytes)
    ensures q.grant.None? ==> q.stage == s
    ensures !Fits(s, numbytes) && q.grant.Some? ==>
      q.grant == Some(0) && q.stage.idx == 0 && q.stage.userIdx == s.userIdx + s.idx
    ensures !Fits(s, numbytes) && s.idx != 0 && !SpillBlocked(s) ==> q.stage == Spill(s)
    ensures !Fits(s, numbytes) && s.idx == 0 ==> q.stage == s
  {
    if Fits(s, numbytes) then Requested(Some(s.idx), s)
    else if s.idx != 0 && SpillBlocked(s) then Requested(None, s)
    else if s.idx != 0 then Requested(Some(0), Spill(s))
    else Requested(Some(0), s)
  }

  /** Result of a callback that returns a byte count. */
  datatype Counted = Counted(count: uint32, stage: Stage)

  /** `confirm`: `idx += numbytes` on `uint32_t`; nothing is checked. */
  function Confirm(s: Stage, numbytes: uint32): (c: Counted)
    ensures c.count == numbytes
    ensures c.stage.idx == U32Add(s.idx, numbytes)
    ensures c.stage == s.(idx := c.stage.idx)
  {
    Counted(numbytes, s.(idx := U32Add(s.idx, numbytes)))
  }

  /** The encoder writing `data` at offset `at` of the chunk buffer (the
      `memcpy` of `copybytes`). */
  function Fill(s: Stage, at: nat, data: seq<byte>): (s': Stage)
    requires Valid(s) && at + |data| <= s.bfrSize
    ensures Valid(s') && s' == s.(bfr := s'.bfr)
    ensures s'.bfr[at..at + |data|] == data
    ensures s'.bfr[..at] == s.bfr[..at]
    ensures s'.bfr[at + |data|..] == s.bfr[at + |data|..]
  {
    s.(bfr := CopyInto(s.bfr, at, data))
  }

  /** The granted half of `copybytes`: the `memcpy` at `idx` followed by
      `confirm`, which commits exactly the copied bytes. */
  function Put(s: Stage, data: seq<byte>): (s': Stage)
    requires Valid(s) && s.idx + |data| <= s.bfrSize
    ensures Valid(s')
    ensures s' == s.(bfr := CopyInto(s.bfr, s.idx, data), idx := s.idx + |data|)
    ensures Staged(s') == Staged(s) + data
  {
    var f := Fill(s, s.idx, data);
    var c := Confirm(f, |data|);
    assert c.stage.bfr[..s.idx + |data|] == s.bfr[..s.idx] + data by {
      assert c.stage.bfr[..s.idx + |data|] == f.bfr[..s.idx] + f.bfr[s.idx..s.idx + |data|];
    }
    c.stage
  }

  /** `copybytes`: request room for `data`, copy it in and confirm it. When
      the request is refused the staged chunk is dropped (`idx = 0`) and 0 is
      returned. A granted request must fit the chunk buffer (the announced
      chunk size); a refused one may be of any `uint32_t` length. */
  function CopyBytes(s: Stage, data: seq<byte>): (c: Counted)
    requires Valid(s) && |data| < UINT32_LIMIT
    requires |data| <= s.bfrSize || Refuses(s, |data|)
    ensures Valid(c.stage)
    ensures c.stage.bfrSize == s.bfrSize && c.stage.userBfrSize == s.userBfrSize
    ensures c.stage.chunkSize == s.chunkSize
    ensures c.stage.userBfr.Some? == s.userBfr.Some?
    ensures Refuses(s, |data|) ==>
      c.count == 0 && c.stage == s.(idx := 0) && Staged(c.stage) == Spilled(s)
    ensures !Refuses(s, |data|) ==>
      c.count == |data| && Staged(c.stage) == Staged(s) + data
    ensures Fits(s, |data|) ==>
      c.stage == s.(bfr := CopyInto(s.bfr, s.idx, data), idx := s.idx + |data|)
    ensures !Fits(s, |data|) && !Refuses(s, |data|) ==>
      c.stage == (if s.idx != 0 then Spill(s) else s).(bfr := CopyInto(s.bfr, 0, data), idx := |data|)
  {
    var q := Request(s, |data|);
    if q.grant.None? then
      Counted(0, q.stage.(idx := 0))
    else
      Counted(|data|, Put(q.stage, data))
  }

  /** What `auxinfo` hands back: its return value, and the value written
      through the byte-count pointer when it writes one. */
  datatype AuxReply = AuxReply(status: AuxStatus, reported: Option<uint32>, stage: Stage)

  /** `auxinfo`: only the byte-count query does anything. It spills the
      staged chunk, under the same guard as `request`, and reports how many
      bytes the user buffer holds; if the spill is blocked it returns 0 and
      reports nothing. */
  function AuxInfo(s: Stage, info: AuxRecord): (a: AuxReply)
    requires Valid(s)
    ensures Valid(a.stage) && Staged(a.stage) == Staged(s)
    ensures a.stage.bfr == s.bfr && a.stage.bfrSize == s.bfrSize
    ensures a.stage.userBfrSize == s.userBfrSize && a.stage.chunkSize == s.chunkSize
    ensures !WantsByteCount(info) ==> a == AuxReply(BsOk, None, s)
    ensures a.status == ReturnedZero <==> WantsByteCount(info) && s.idx != 0 && SpillBlocked(s)
    ensures a.status == ReturnedZero ==> a.reported.None? && a.stage == s
    ensures WantsByteCount(info) && a.status == BsOk ==>
      && a.reported == Some(|Staged(s)| as uint32)
      && a.stage.idx == 0
      && Spilled(a.stage) == Staged(s)
      && a.stage == (if s.idx != 0 then Spill(s) else s)
  {
    if !WantsByteCount(info) then AuxReply(BsOk, None, s)
    else if s.idx != 0 && SpillBlocked(s) then AuxReply(ReturnedZero, None, s)
    else
      var s' := if s.idx != 0 then Spill(s) else s;
      AuxReply(BsOk, Some(s'.userIdx), s')
  }

  /** `done`, before the buffers are freed: copy the staged chunk behind the
      spilled bytes if it fits, without advancing `user_idx`. */
  function Done(s: Stage): (s': Stage)
    requires Valid(s)
    ensures Valid(s')
    ensures s'.userIdx == s.userIdx && s'.idx == s.idx && s'.bfr == s.bfr
    ensures s'.userBfrSize == s.userBfrSize && s'.userBfr.Some? == s.userBfr.Some?
    ensures s' == s.(userBfr := s'.userBfr)
    ensures s.idx != 0 && s.userBfr.Some? && s.userIdx + s.idx <= s.userBfrSize ==>
      && s'.userBfr.value[..s.userIdx + s.idx] == Staged(s)
      && s'.userBfr.value[s.userIdx + s.idx..] == s.userBfr.value[s.userIdx + s.idx..]
    ensures !(s.idx != 0 && s.userBfr.Some? && s.userIdx + s.idx <= s.userBfrSize) ==> s' == s
  {
    if s.idx != 0 && U32Add(s.userIdx, s.idx) <= s.userBfrSize && s.userBfr.Some? then
      var u := CopyInto(s.userBfr.value, s.userIdx, s.bfr[..s.idx]);
      assert u[..s.userIdx + s.idx] == u[..s.userIdx] + u[s.userIdx..s.userIdx + s.idx];
      s.(userBfr := Some(u))
    else
      s
  }
}

=== FILE: staging_props.dfy ===
/**
 Properties of the staging sink (libavcodec/main_concept_vc1.c) beyond single
 callbacks: how much room a grant really has, that spilled bytes are never
 rewritten, and that a session whose output fits the user buffer delivers
 every committed byte, in order, to it.
 */
module StagingProperties {
  import opened BufStream
  import opened StagingBuffer

  /** `confirm` of no more than the usable room keeps the sink valid and
      commits exactly the bytes written after `idx`. */
  lemma ConfirmCommits(s: Stage, numbytes: uint32)
    requires Valid(s) && numbytes <= UsableBytes(s)
    ensures Valid(Confirm(s, numbytes).stage)
    ensures Staged(Confirm(s, numbytes).stage) == Staged(s) + s.bfr[s.idx..s.idx + numbytes]
  {
    var s' := Confirm(s, numbytes).stage;
    assert s'.bfr[..s.idx + numbytes] == s.bfr[..s.idx] + s.bfr[s.idx..s.idx + numbytes];
  }

  /** A granted region holds the requested bytes whenever the request is no
      larger than the chunk buffer. */
  lemma GrantHasRoom(s: Stage, numbytes: uint32)
    requires Valid(s) && numbytes <= s.bfrSize
    requires Request(s, numbytes).grant.Some?
    ensures Request(s, numbytes).grant.value + numbytes <= s.bfrSize
  {
  }

  /** The fit test wraps: with bytes staged, a request for 2^32 - 1 bytes
      "fits" and is granted only the bytes left after `idx`, fewer than half
      of what was asked. */
  lemma FitTestWraps(s: Stage)
    requires Valid(s) && s.idx > 0
    ensures Request(s, UINT32_MAX).grant == Some(s.idx)
    ensures s.bfrSize - s.idx < SIZE_LIMIT
  {
    assert U32Add(s.idx, UINT32_MAX) == s.idx - 1;
  }

  /** A request larger than the chunk buffer on an empty chunk is granted the
      whole buffer, which is smaller than asked. */
  lemma OversizeRequestGranted(s: Stage, numbytes: uint32)
    requires Valid(s) && s.idx == 0 && s.bfrSize < numbytes
    ensures Request(s, numbytes).grant == Some(0)
    ensures Request(s, numbytes).stage == s
  {
  }

  /** While everything committed so far fits the user buffer, `copybytes`
      cannot be refused. */
  lemma CopyLandsWhileRoom(s: Stage, data: seq<byte>)
    requires Valid(s) && |data| <= s.bfrSize
    requires s.userBfr.Some? && |Staged(s)| <= s.userBfrSize
    ensures !Refuses(s, |data|)
    ensures CopyBytes(s, data).count == |data|
  {
  }

  /** Where the committed bytes sit matters, not only which they are: two
      sinks holding the same committed bytes, split differently between the
      user buffer and the chunk, treat the next one-byte copy differently.
      The first stages it; the second cannot spill its full chunk and drops
      it. */
  lemma SplitDecidesRefusal()
    ensures var a := Stage(Some([1, 2, 3, 4, 5, 6, 0, 0]), 8, 6, [7, 8, 9, 0, 0, 0, 0, 0], 3, 8, 8);
      var b := Stage(Some([1, 0, 0, 0, 0, 0, 0, 0]), 8, 1, [2, 3, 4, 5, 6, 7, 8, 9], 8, 8, 8);
      && Valid(a) && Valid(b) && Staged(a) == Staged(b)
      && CopyBytes(a, [10]).count == 1
      && CopyBytes(b, [10]).count == 0 && Staged(CopyBytes(b, [10]).stage) == [1]
  {
    var a := Stage(Some([1, 2, 3, 4, 5, 6, 0, 0]), 8, 6, [7, 8, 9, 0, 0, 0, 0, 0], 3, 8, 8);
    var b := Stage(Some([1, 0, 0, 0, 0, 0, 0, 0]), 8, 1, [2, 3, 4, 5, 6, 7, 8, 9], 8, 8, 8);
    assert Staged(a) == [1, 2, 3, 4, 5, 6, 7, 8, 9];
    assert Staged(b) == [1, 2, 3, 4, 5, 6, 7, 8, 9];
    assert Fits(a, 1);
    assert Refuses(b, 1);
  }

  /** Bytes once spilled are never rewritten: the spilled part of every
      later state extends the earlier one. */
  lemma SpilledOnlyGrows(s: Stage, data: seq<byte>, info: AuxRecord, numbytes: uint32)
    requires Valid(s) && |data| < UINT32_LIMIT
    requires |data| <= s.bfrSize || Refuses(s, |data|)
    ensures Spilled(s) <= Spilled(CopyBytes(s, data).stage)
    ensures Spilled(s) <= Spilled(AuxInfo(s, info).stage)
    ensures Spilled(s) <= Spilled(Request(s, numbytes).stage)
  {
    CopyKeepsSpilled(s, data);
    AuxInfoKeepsSpilled(s, info);
    RequestKeepsSpilled(s, numbytes);
  }

  lemma CopyKeepsSpilled(s: Stage, data: seq<byte>)
    requires Valid(s) && |data| < UINT32_LIMIT
    requires |data| <= s.bfrSize || Refuses(s, |data|)
    ensures Spilled(s) <= Spilled(CopyBytes(s, data).stage)
  {
    PrefixOfStagedGrows(s, CopyBytes(s, data).stage);
  }

  lemma AuxInfoKeepsSpilled(s: Stage, info: AuxRecord)
    requires Valid(s)
    ensures Spilled(s) <= Spilled(AuxInfo(s, info).stage)
  {
    PrefixOfStagedGrows(s, AuxInfo(s, info).stage);
  }

  lemma RequestKeepsSpilled(s: Stage, numbytes: uint32)
    requires Valid(s)
    ensures Spilled(s) <= Spilled(Request(s, numbytes).stage)
  {
    PrefixOfStagedGrows(s, Request(s, numbytes).stage);
  }

  /** If the committed bytes of `s` begin the committed bytes of `s'` and the
      user cursor did not move back, the spilled bytes of `s` begin those of
      `s'`. */
  lemma PrefixOfStagedGrows(s: Stage, s': Stage)
    requires Valid(s) && Valid(s')
    requires Staged(s)[..s.userIdx] <= Staged(s') || Spilled(s') == Spilled(s)
    requires s.userIdx <= s'.userIdx
    ensures Spilled(s) <= Spilled(s')
  {
    if Spilled(s') != Spilled(s) {
      assert Spilled(s) == Staged(s)[..s.userIdx];
      assert Spilled(s') == Staged(s')[..s'.userIdx];
    }
  }

  /** All the chunks handed to `copybytes`, end to end. */
  function Flatten(chunks: seq<seq<byte>>): (out: seq<byte>)
    decreases |chunks|
  {
    if chunks == [] then [] else chunks[0] + Flatten(chunks[1..])
  }

  /** Every chunk fits the chunk buffer. */
  predicate ChunksFit(chunks: seq<seq<byte>>, bfrSize: nat)
  {
    forall i :: 0 <= i < |chunks| ==> |chunks[i]| <= bfrSize
  }

  /** Result of a run of `copybytes` calls: what each returned. */
  datatype Copied = Copied(counts: seq<uint32>, stage: Stage)

  function CopyAll(s: Stage, chunks: seq<seq<byte>>): (c: Copied)
    requires Valid(s) && ChunksFit(chunks, s.bfrSize)
    ensures Valid(c.stage) && |c.counts| == |chunks|
    ensures c.stage.bfrSize == s.bfrSize && c.stage.userBfrSize == s.userBfrSize
    ensures c.stage.userBfr.Some? == s.userBfr.Some?
    decreases |chunks|
  {
    if chunks == [] then Copied([], s)
    else
      var first := CopyBytes(s, chunks[0]);
      var rest := CopyAll(first.stage, chunks[1..]);
      Copied([first.count] + rest.counts, rest.stage)
  }

  /** The first `copybytes` of a run that fits lands its whole chunk and
      leaves the rest of the run fitting what is left. */
  lemma FirstCopyLands(s: Stage, chunks: seq<seq<byte>>)
    requires Valid(s) && ChunksFit(chunks, s.bfrSize) && chunks != []
    requires s.userBfr.Some? && |Staged(s)| + |Flatten(chunks)| <= s.userBfrSize
    ensures var first := CopyBytes(s, chunks[0]);
      && first.count == |chunks[0]|
      && Staged(first.stage) == Staged(s) + chunks[0]
      && ChunksFit(chunks[1..], first.stage.bfrSize)
      && first.stage.userBfr.Some?
      && |Staged(first.stage)| + |Flatten(chunks[1..])| <= first.stage.userBfrSize
  {
    CopyLandsWhileRoom(s, chunks[0]);
    assert Flatten(chunks) == chunks[0] + Flatten(chunks[1..]);
    forall i | 0 <= i < |chunks[1..]| ensures |chunks[1..][i]| <= s.bfrSize {
      assert chunks[1..][i] == chunks[i + 1];
    }
  }

  /** Appending a run chunk by chunk appends it all at once. */
  lemma AppendChunks(front: seq<byte>, chunks: seq<seq<byte>>)
    requires chunks != []
    ensures front + chunks[0] + Flatten(chunks[1..]) == front + Flatten(chunks)
  {
    assert Flatten(chunks) == chunks[0] + Flatten(chunks[1..]);
  }

  /** A run of `copybytes` whose total output fits the user buffer is never
      refused: every call returns the length of its chunk. */
  lemma {:induction false} NoCopyRefused(s: Stage, chunks: seq<seq<byte>>)
    requires Valid(s) && ChunksFit(chunks, s.bfrSize)
    requires s.userBfr.Some? && |Staged(s)| + |Flatten(chunks)| <= s.userBfrSize
    ensures forall i :: 0 <= i < |chunks| ==> CopyAll(s, chunks).counts[i] == |chunks[i]|
    decreases |chunks|
  {
    if chunks != [] {
      FirstCopyLands(s, chunks);
      var first := CopyBytes(s, chunks[0]);
      NoCopyRefused(first.stage, chunks[1..]);
      var rest := CopyAll(first.stage, chunks[1..]);
      assert CopyAll(s, chunks).counts == [first.count] + rest.counts;
      forall i | 0 <= i < |chunks| ensures CopyAll(s, chunks).counts[i] == |chunks[i]| {
        if i > 0 {
          assert chunks[1..][i - 1] == chunks[i];
        }
      }
    }
  }

  /** The same run leaves the sink holding exactly the earlier bytes followed
      by every chunk, in order. */
  lemma {:induction false} AllCopiesLand(s: Stage, chunks: seq<seq<byte>>)
    requires Valid(s) && ChunksFit(chunks, s.bfrSize)
    requires s.userBfr.Some? && |Staged(s)| + |Flatten(chunks)| <= s.userBfrSize
    ensures Staged(CopyAll(s, chunks).stage) == Staged(s) + Flatten(chunks)
    decreases |chunks|
  {
    if chunks != [] {
      FirstCopyLands(s, chunks);
      var first := CopyBytes(s, chunks[0]);
      AllCopiesLand(first.stage, chunks[1..]);
      var rest := CopyAll(first.stage, chunks[1..]).stage;
      assert CopyAll(s, chunks).stage == rest;
      AppendChunks(Staged(s), chunks);
    }
  }

  /** A session whose output fits its buffer: after every chunk has gone
      through `copybytes`, the byte-count query reports the total and the user
      buffer begins with exactly the bytes the encoder produced. */
  lemma SessionDeliversAllBytes(buffer: seq<byte>, bufsize: uint32, scratch: seq<byte>, chunks: seq<seq<byte>>)
    requires bufsize < SIZE_LIMIT && |buffer| == bufsize && |scratch| == bufsize
    requires ChunksFit(chunks, bufsize) && |Flatten(chunks)| <= bufsize
    ensures var s := Init(Some(buffer), bufsize, scratch);
      var a := AuxInfo(CopyAll(s, chunks).stage, ByteCountInfo(true, 4));
      && a.status == BsOk
      && a.reported == Some(|Flatten(chunks)| as uint32)
      && a.stage.userBfr.Some?
      && a.stage.userIdx == |Flatten(chunks)|
      && a.stage.userBfr.value[..|Flatten(chunks)|] == Flatten(chunks)
  {
    var s := Init(Some(buffer), bufsize, scratch);
    AllCopiesLand(s, chunks);
    var t := CopyAll(s, chunks).stage;
    assert Staged(t) == Flatten(chunks);
    var a := AuxInfo(t, ByteCountInfo(true, 4));
    assert !SpillBlocked(t);
    assert Spilled(a.stage) == Flatten(chunks);
  }

  /** `done` leaves `user_idx` behind the bytes it copies: whenever a chunk
      is staged, the byte count no longer covers everything committed. */
  lemma DoneLeavesCountBehind(s: Stage)
    requires Valid(s) && s.idx > 0
    ensures Done(s).userIdx < |Staged(s)|
  {
  }
}

=== FILE: video_type.dfy ===
/**
 `get_video_type`, the width/height classifier both adapters use to pick the
 encoder's preset (libavcodec/libmcvc1.c and libavcodec/main_concept_vc1.c
 each carry a copy; the second takes a frame rate it never reads).
 */
module VideoType {

  /** The encoder presets `VC1_CIF`, `VC1_SVCD`, `VC1_D1`, `VC1_BASELINE`,
      `VC1_BD` and `VC1_MAIN`. */
  datatype Preset = Cif | Svcd | D1 | Baseline | Bd | Main

  /** One of the three standard-definition frame sizes the classifier names. */
  predicate NamedSize(width: int, height: int)
  {
    || (width == 352 && (height == 240 || height == 288))
    || (width == 480 && (height == 480 || height == 576))
    || (width == 720 && (height == 480 || height == 576))
  }

  /** The copy in libmcvc1.c. */
  function Classify(width: int, height: int): (p: Preset)
    ensures p == Cif <==> width == 352 && (height == 240 || height == 288)
    ensures p == Svcd <==> width == 480 && (height == 480 || height == 576)
    ensures p == D1 <==> width == 720 && (height == 480 || height == 576)
    ensures p == Baseline <==> width < 288
    ensures p == Bd <==> width >= 1280
    ensures p == Main <==> 288 <= width < 1280 && !NamedSize(width, height)
  {
    if width == 352 && (height == 240 || height == 288) then Cif
    else if width == 480 && (height == 480 || height == 576) then Svcd
    else if width == 720 && (height == 480 || height == 576) then D1
    else if width < 288 then Baseline
    else if width >= 1280 then Bd
    else Main
  }

  /** The copy in main_concept_vc1.c, whose `frame_rate` argument (a C
      `double`) plays no part. */
  function ClassifyAtRate(width: int, height: int, frameRate: real): (p: Preset)
  {
    if width == 352 && (height == 240 || height == 288) then Cif
    else if width == 480 && (height == 480 || height == 576) then Svcd
    else if width == 720 && (height == 480 || height == 576) then D1
    else if width < 288 then Baseline
    else if width >= 1280 then Bd
    else Main
  }

  /** The two copies agree on every size, whatever the frame rate. */
  lemma CopiesAgree(width: int, height: int, frameRate: real)
    ensures ClassifyAtRate(width, height, frameRate) == Classify(width, height)
  {
  }

  /** The preset depends on height only for the three named widths. */
  lemma HeightMattersOnlyForNamedWidths(width: int, h1: int, h2: int)
    requires width != 352 && width != 480 && width != 720
    ensures Classify(width, h1) == Classify(width, h2)
  {
  }
}
